=== FILE: README.md ===
# Mod audio of sm64coopdx, modelled in Dafny

This project models the mod-audio bookkeeping of sm64coopdx. That code lives in
`src/pc/lua/utils/smlua_audio_utils.c`, the C layer behind the Lua audio API
that mods call. The model has three parts.

- **Handle registry.** `audio_load_internal` and `find_mod_audio`.
  - A load checks the file extension and resolves the name to the first file
    of the active mod whose path ends with it.
  - It returns the handle already registered for that `ModFile` record, and
    refuses one of the other kind.
  - Otherwise it allocates a pool slot and asks the engine to open the file.
  - `audio_sanity_check` guards every stream and sample operation by kind.
- **Sample copies.** A sample played while its base sound is still playing
  gets a copy, linked at the tail of its handle's intrusive doubly linked
  list.
  - The engine's end callback moves a finished copy onto a global pending
    list.
  - The pending list is drained once per frame.
  - Stopping or destroying the sample frees its copies at once.
  - `audio_custom_shutdown` tears down every handle in the pool.
- **Sequence overrides.** A fixed table of music-sequence replacements, each
  naming an `.m64` file of the active mod and caching its contents after the
  first read.

The model is pointer-level. Copies live in a node store whose index plays
the role of the address. Freed memory keeps its last contents there, and
the walks of the C code follow the stored `prev` links. `live`,
`finished` and the `released` multiset record which copies are allocated,
which have finished, and how many times each was uninitialised and freed.

An abstract `View` gives the contents of every list, head first. The
invariant `SampleCopies.Wf` relates that view to the stored links:

- every list is exactly spelled by its links and ends at its tail pointer;
- each live copy is on the one list its state calls for;
- each freed copy was released exactly once.

The main results are these:

- `Lifecycle.RunWf` and `Lifecycle.NeverDoubleFree`: with the corrected
  callback and load, any sequence of mod calls, sounds reaching their end,
  end callbacks and frames keeps the invariant, so no copy is ever
  released twice.
- `Lifecycle.ShutdownLeavesOnlyPending`: shutdown leaves only finished,
  pending copies behind.
- The three findings below: each is a defect of the code as written, shown
  on a concrete trace and fixed in the corrected model.

The miniaudio engine is abstracted. A `Sound` records whether it is
initialised and playing, its cursor, length, looping flag, pitch, and a
count of `ma_sound_uninit` calls. What the engine and pool allocator answer
to a load is the parameter `Registry.Env`. The path normaliser is a function
parameter, and the outcome of reading an `.m64` file is an `Option`
parameter.

Files:

- `base.dfy`: `Option`, mod files, suffix search, distinctness.
- `audio.dfy`: the state and the sanity check.
- `links.dfy`: the intrusive list operations and their effect on the
  described sequences.
- `registry.dfy`: loading.
- `streams.dfy`: stream operations.
- `copies.dfy`: sample copies and the list invariant.
- `overrides.dfy`: the sequence-override table.
- `lifecycle.dfy`: shutdown, the whole subsystem as a transition system
  (corrected and as written), and the shutdown finding.

## Model

| member | source | states |
|---|---|---|
| ModAudio.SanityCheck | src/pc/lua/utils/smlua_audio_utils.c:176-190 | The check passes exactly when the handle is not NULL and its kind is the one the operation asks for. |
| ModAudio.SoundEnds | src/pc/lua/utils/smlua_audio_utils.c:286 | When the engine reaches the end of a handle's sound, a playing sound that does not loop is no longer playing and its cursor is at its length. This is what `ma_sound_is_playing` then reports to stream play (line 286) and sample play (line 480). A looping or idle sound is untouched, and nothing but that sound's playing flag and cursor changes. |
| Registry.FindFrom | src/pc/lua/utils/smlua_audio_utils.c:165-174 | The search from the pool's tail returns the most recently allocated slot for that file record, and no later slot has it; if it returns nothing, no slot holds the record. |
| Registry.FindModAudio | src/pc/lua/utils/smlua_audio_utils.c:165-174 | The search returns the last slot recording the file, with no later slot recording it, and returns nothing exactly when no slot records it. |
| Registry.ValidFileType | src/pc/lua/utils/smlua_audio_utils.c:193-207 | A name is accepted exactly when it ends with .mp3, .aiff or .ogg. |
| Registry.Resolve | src/pc/lua/utils/smlua_audio_utils.c:192-238 | Resolution fails with UnsupportedFormat for a name not ending in .mp3, .aiff or .ogg, and with NotFound when no mod file ends with the name. An existing handle is returned only if it has the requested kind. A fresh allocation is asked only for the first matching file of the active mod, and only when that file has no slot yet. |
| Registry.LoadRejects | src/pc/lua/utils/smlua_audio_utils.c:192-224 | An unsupported extension, or a name matching no file of the mod, fails with its own error and leaves the registry unchanged, whatever the engine would answer. |
| Registry.LoadDeduplicates | src/pc/lua/utils/smlua_audio_utils.c:226-238 | Loading a registered file as the same kind returns the identical handle. Loading it as the other kind fails with KindMismatch. Neither allocates anything, and the first matching file of the mod is the one looked up. |
| Registry.LoadKeepsFilesUnique | src/pc/lua/utils/smlua_audio_utils.c:226-250 | Loading never gives two slots the same file record. |
| Registry.LoadIsIdempotent | src/pc/lua/utils/smlua_audio_utils.c:226-231 | Repeating a successful load returns the same handle and changes nothing, whatever the engine would answer. |
| Registry.LoadAsWritten | src/pc/lua/utils/smlua_audio_utils.c:192-265 | A returned handle has the requested kind. The state is unchanged or grows by exactly one slot without copies, with every earlier slot kept, and the new slot records a file that had no slot. |
| Registry.Load | src/pc/lua/utils/smlua_audio_utils.c:192-265 | The corrected load: a failed load changes nothing, and a state change means the new slot was returned with an initialised sound. It also keeps the as-written guarantees, including that the new slot records a file that had no slot. |
| Registry.LoadDiffersOnlyOnInitFailure | src/pc/lua/utils/smlua_audio_utils.c:242-264 | The two loads differ exactly when the engine rejects a file that needed a fresh slot. |
| Registry.LoadFreshFile | src/pc/lua/utils/smlua_audio_utils.c:240-264 | For a supported name whose first matching file has no slot: with a slot and an opened sound, both loads append a slot recording that file with the requested kind and the opened sound, and return it. With no slot left, both fail with OutOfMemory and change nothing. When the engine rejects the file, the corrected load fails with EngineInitFailed and changes nothing. |
| Registry.HalfRegisteredSlot | src/pc/lua/utils/smlua_audio_utils.c:242-261 | After the engine rejects a fresh stream, the next stream load of the file fails with KindMismatch. The next sample load returns the half-registered slot, whose sound was never initialised. That this lasts for good is `Lifecycle.HalfRegisteredForever`. |
| Registry.HalfRegisteredExample | src/pc/lua/utils/smlua_audio_utils.c:242-261 | On a concrete mod with one file `music.ogg`, a stream load rejected once is refused later by the code as written and succeeds with the corrected load. |
| Registry.FailedLoadCanBeRetried | src/pc/lua/utils/smlua_audio_utils.c:258-261 | With the corrected load, any load after a failed one behaves as if the failed one never happened. |
| Streams.StreamPlay | src/pc/lua/utils/smlua_audio_utils.c:279-288 | A guarded stream starts playing and rewinds to frame 0 only if restart is asked or it was not playing; only its sound changes; a failed guard changes nothing. |
| Streams.StreamPause | src/pc/lua/utils/smlua_audio_utils.c:290-295 | A guarded stream stops at its current frame; nothing else changes. |
| Streams.StreamStop | src/pc/lua/utils/smlua_audio_utils.c:297-303 | A guarded stream stops and rewinds to frame 0; nothing else changes. |
| Streams.SeekTarget | src/pc/lua/utils/smlua_audio_utils.c:313-320 | The seek frame is the length scaled by the position, truncated towards zero. |
| Streams.SeekTargetBounds | src/pc/lua/utils/smlua_audio_utils.c:313-320 | Position 0 seeks to the start, and a later position never seeks earlier. For a length below 2^24 frames, which a 32-bit float holds exactly, position 1 seeks to the length and no position up to 1 goes past the end. |
| Streams.StreamSetPosition | src/pc/lua/utils/smlua_audio_utils.c:313-320 | A guarded stream moves its cursor to the seek frame and keeps everything else. |
| Streams.StreamGetLooping | src/pc/lua/utils/smlua_audio_utils.c:322-327 | Only a stream can report looping. |
| Streams.StreamSetLooping | src/pc/lua/utils/smlua_audio_utils.c:329-334 | Only the guarded stream's looping flag changes. |
| Streams.StreamGetFrequency | src/pc/lua/utils/smlua_audio_utils.c:336-341 | A handle that fails the guard reads frequency 0. |
| Streams.StreamSetFrequency | src/pc/lua/utils/smlua_audio_utils.c:343-348 | Only the guarded stream's pitch changes. |
| Streams.StreamSettersRoundTrip | src/pc/lua/utils/smlua_audio_utils.c:322-348 | The looping flag and frequency read back are the ones last set. |
| Streams.StreamDestroy | src/pc/lua/utils/smlua_audio_utils.c:271-277 | A guarded stream's sound is uninitialised once more and stops; the slot stays in the pool. |
| Streams.StreamOpsCheckKind | src/pc/lua/utils/smlua_audio_utils.c:176-190 | Every stream operation on a sample handle or on NULL returns before touching anything; the getters read false and 0. |
| Streams.PauseThenPlayRewinds | src/pc/lua/utils/smlua_audio_utils.c:279-303 | Pause then play without restart is the same as stop then play: the stream starts over from frame 0. |
| Streams.PlayWhilePlayingKeepsPosition | src/pc/lua/utils/smlua_audio_utils.c:285-287 | Playing a stream that is already playing, without restart, keeps its position. |
| Streams.EndedStreamPlaysFromStart | src/pc/lua/utils/smlua_audio_utils.c:285-287 | A stream that played to its end without looping starts over from frame 0 when played without restart. A looping stream never ends, and playing it again changes nothing. |
| SampleCopies.SamplePlay | src/pc/lua/utils/smlua_audio_utils.c:474-494 | A base sound that is not playing is started, with no copy and the list untouched. If it is playing, exactly one new copy is made: its parent is the handle, its prev is the old tail, and it becomes the tail. Other handles are unchanged. |
| SampleCopies.PlayTwice | src/pc/lua/utils/smlua_audio_utils.c:479-494 | Playing a sounding sample twice gives two copies linked in order, the second being the tail. |
| SampleCopies.EndedSampleMakesNoCopy | src/pc/lua/utils/smlua_audio_utils.c:479-494 | A sample whose base sound is playing gets a copy when played. Once the base sound has reached its end, playing it makes no copy and restarts the base sound instead. |
| SampleCopies.EndCallbackAsWritten | src/pc/lua/utils/smlua_audio_utils.c:397-418 | The finished copy becomes the pending tail, its prev the old pending tail and its next NULL. It is marked finished and nothing is freed. When the copy is not its own neighbour, the parent's tail is cleared exactly when the copy had no neighbours and kept otherwise. Only the parent's tail changes in the pool. |
| SampleCopies.EndCallback | src/pc/lua/utils/smlua_audio_utils.c:397-418 | The corrected callback has the same effect on the pending list. When the copy is its parent's tail, the tail moves back to the copy's predecessor, which is NULL if it had none; otherwise the tail is kept. Only the parent's tail changes in the pool. |
| SampleCopies.EndCallbackWf | src/pc/lua/utils/smlua_audio_utils.c:397-418 | The corrected callback keeps the invariant: the copy leaves exactly its parent's list and is appended to the pending list. |
| SampleCopies.CallbackAgreement | src/pc/lua/utils/smlua_audio_utils.c:403-405 | In a well-formed state the two callbacks agree exactly unless the copy is its parent's tail and has a predecessor. |
| SampleCopies.StaleTail | src/pc/lua/utils/smlua_audio_utils.c:403-405 | In that case the callback as written leaves the parent's tail on a finished copy. |
| SampleCopies.StaleTailDoubleFree | src/pc/lua/utils/smlua_audio_utils.c:397-472 | Play twice, let the second copy finish, drain, then stop: the second copy is freed twice. The first copy is left sounding, unfinished and on no list after the stop; it is freed once, only after its own end callback and the next drain. |
| SampleCopies.CorrectedTailFreesOnce | src/pc/lua/utils/smlua_audio_utils.c:397-472 | The same trace with the corrected callback frees each copy exactly once and leaves none alive. |
| SampleCopies.DrainPending | src/pc/lua/utils/smlua_audio_utils.c:422-434 | The pending tail ends NULL, and no copy becomes live. Handles, links and finished marks are kept, and an empty pending list is left alone. |
| SampleCopies.DrainPendingWf | src/pc/lua/utils/smlua_audio_utils.c:422-434 | The drain frees exactly the copies on the pending list, each once, and keeps the invariant with that list empty. |
| SampleCopies.DrainPendingTwice | src/pc/lua/utils/smlua_audio_utils.c:422-434 | A second drain right after a first does nothing. |
| SampleCopies.WalkCoversList | src/pc/lua/utils/smlua_audio_utils.c:426-431 | A walk from the tail through the prev links visits exactly the list, once each. |
| SampleCopies.DestroyCopies | src/pc/lua/utils/smlua_audio_utils.c:436-446 | The handle's tail ends NULL and its sound is kept; every other handle is unchanged. |
| SampleCopies.DestroyCopiesWf | src/pc/lua/utils/smlua_audio_utils.c:436-446 | It frees exactly the copies on the handle's list, each once, and keeps the invariant with that list empty. |
| SampleCopies.SampleStop | src/pc/lua/utils/smlua_audio_utils.c:463-472 | A guarded sample loses its copies and its base sound stops and rewinds to frame 0; other handles are unchanged; a failed guard changes nothing. |
| SampleCopies.SampleStopWf | src/pc/lua/utils/smlua_audio_utils.c:463-472 | Stop frees exactly the copies of the handle's list, each once, and keeps the invariant. |
| SampleCopies.SampleDestroy | src/pc/lua/utils/smlua_audio_utils.c:452-461 | A guarded sample loses its copies and its base sound is uninitialised once more. The slot stays registered with the same file and kind, and a failed guard changes nothing. |
| SampleCopies.SampleDestroyWf | src/pc/lua/utils/smlua_audio_utils.c:452-461 | Destroy frees exactly the copies of the handle's list, each once, and keeps the invariant. |
| SampleCopies.SamplePlayWf | src/pc/lua/utils/smlua_audio_utils.c:474-494 | Play keeps the invariant, with the new copy, if any, at the end of its handle's list. |
| SampleCopies.InitWf | src/pc/lua/utils/smlua_audio_utils.c:536-543 | The freshly initialised subsystem has no copies and satisfies the invariant. |
| SampleCopies.WfTailsPlaying | src/pc/lua/utils/smlua_audio_utils.c:397-418 | In a well-formed state every tail pointer designates a copy still playing. |
| Links.LinkAtTailAppends | src/pc/lua/utils/smlua_audio_utils.c:486-490 | Linking an unlinked copy after the tail extends the described list by exactly that copy. |
| Links.DetachRemoves | src/pc/lua/utils/smlua_audio_utils.c:401-407 | Unlinking a copy and clearing its links removes exactly that copy from the described list. |
| Links.WalkBackVisitsList | src/pc/lua/utils/smlua_audio_utils.c:426-431 | Following prev links from the last element visits the whole list, head first, within the step bound. |
| Links.WalkBack | src/pc/lua/utils/smlua_audio_utils.c:426-431 | A walk from NULL visits nothing. A walk from a copy ends at that copy, takes at most the step bound, and visits only allocated copies. |
| Links.LinkAtTail | src/pc/lua/utils/smlua_audio_utils.c:486-490 | With no tail nothing changes. Otherwise the copy's prev becomes the old tail and the old tail's next becomes the copy; no other node changes. |
| Links.Unlink | src/pc/lua/utils/smlua_audio_utils.c:401-402 | The copy's successor now points back to its predecessor, and its predecessor forward to its successor. No node other than those two neighbours changes, and every link stays allocated. |
| Links.Detach | src/pc/lua/utils/smlua_audio_utils.c:401-407 | The copy ends with both links NULL, every parent is kept and every link stays allocated. |
| Lifecycle.LoadWf | src/pc/lua/utils/smlua_audio_utils.c:240-264 | A load keeps the invariant, with an empty list for a new slot. |
| Lifecycle.StreamOpsWf | src/pc/lua/utils/smlua_audio_utils.c:271-348 | Every stream operation keeps the invariant with the same lists. |
| Lifecycle.DestroyHandle | src/pc/lua/utils/smlua_audio_utils.c:524-530 | One turn of the shutdown loop uninitialises the slot's sound once more and clears a sample's tail. It keeps the slot's file, kind and the other slots. |
| Lifecycle.ShutdownFromAsWritten | src/pc/lua/utils/smlua_audio_utils.c:520-534 | The shutdown loop as written leaves every slot's sound uninitialised and stopped, with one more uninit call on each, including sounds already uninitialised. |
| Lifecycle.ShutdownAsWritten | src/pc/lua/utils/smlua_audio_utils.c:520-534 | After the shutdown as written every sound is uninitialised and stopped, with one more uninit call on each, and every sample has no tail. The node store, the finished marks and the pending list are kept. |
| Lifecycle.ShutdownAsWrittenWf | src/pc/lua/utils/smlua_audio_utils.c:520-534 | The shutdown as written keeps the invariant and empties every handle's list. |
| Lifecycle.DestroyedSampleUninitTwice | src/pc/lua/utils/smlua_audio_utils.c:520-534 | A sample destroyed by its mod has its sound uninitialised a second time by the shutdown as written. |
| Lifecycle.ShutdownDoubleUninitExample | src/pc/lua/utils/smlua_audio_utils.c:520-534 | On one loaded sample, destroy then shutdown calls uninit twice as written and once when corrected. |
| Lifecycle.DestroyHandleIfReady | src/pc/lua/utils/smlua_audio_utils.c:524-530 | The corrected turn uninitialises a sound only if it is initialised; a sample's copies are freed either way. |
| Lifecycle.ShutdownFrom | src/pc/lua/utils/smlua_audio_utils.c:520-534 | The corrected shutdown leaves every sound uninitialised and every sample without copies, with exactly one uninit call on each sound that was initialised and none on the others. |
| Lifecycle.Shutdown | src/pc/lua/utils/smlua_audio_utils.c:520-534 | After the corrected shutdown every sound is uninitialised and every sample has no tail. Exactly the sounds that were initialised get one more uninit call. The node store, the finished marks and the pending list are kept. |
| Lifecycle.ShutdownWf | src/pc/lua/utils/smlua_audio_utils.c:520-534 | The corrected shutdown keeps the invariant and empties every handle's list. |
| Lifecycle.ShutdownLeavesOnlyPending | src/pc/lua/utils/smlua_audio_utils.c:520-534 | After shutdown no sample has a tail, and no copy was freed twice. Every copy still allocated has finished and waits on the pending list. Neither shutdown nor deinit (lines 545-552) drains that list, and the pending tail is a static that init does not reset (lines 393, 536-543). So those copies outlive `ma_engine_uninit` (line 549), and only a later drain uninitialises and frees them, if frames run again. |
| Lifecycle.ShutdownUninitsOnce | src/pc/lua/utils/smlua_audio_utils.c:520-534 | From a state where no sound was uninitialised twice, the corrected shutdown keeps it so, and uninitialises each initialised sound exactly once. |
| Lifecycle.DestroyedSampleUninitOnce | src/pc/lua/utils/smlua_audio_utils.c:452-461 | With the corrected shutdown a sample destroyed by its mod is uninitialised once in all. |
| Lifecycle.NextWf | src/pc/lua/utils/smlua_audio_utils.c:192-472 | Every step of the subsystem keeps the invariant: a load, a mod call, a sound reaching its end, an end callback or a frame. |
| Lifecycle.Next | src/pc/lua/utils/smlua_audio_utils.c:192-472 | A step keeps every pointer allocated, and an event that cannot happen changes nothing. |
| Lifecycle.Run | src/pc/lua/utils/smlua_audio_utils.c:192-472 | A run keeps every pointer allocated, and the pool and the node store only grow. |
| Lifecycle.RunWf | src/pc/lua/utils/smlua_audio_utils.c:192-472 | The invariant holds after any sequence of steps. |
| Lifecycle.WfSafe | src/pc/lua/utils/smlua_audio_utils.c:397-446 | In a well-formed state no copy was released twice and every freed copy was released. Every tail designates a playing copy. |
| Lifecycle.NeverDoubleFree | src/pc/lua/utils/smlua_audio_utils.c:397-472 | From init, whatever happens, no copy is released twice, every freed copy was released, and no tail is left on a finished copy. |
| Lifecycle.ShutdownAfterRun | src/pc/lua/utils/smlua_audio_utils.c:545-552 | Deinitialising after any run leaves only finished copies allocated, all on the pending list, which deinit does not drain, and nothing released twice. |
| Lifecycle.NextAsWritten | src/pc/lua/utils/smlua_audio_utils.c:192-472 | A step with the load and end callback as written keeps every pointer allocated. An event that cannot happen changes nothing, and every event but a load or an end callback has the corrected step's effect. |
| Lifecycle.NextKeepsSlots | src/pc/lua/utils/smlua_audio_utils.c:192-472 | No event but a load, in either version, changes the number of slots or any slot's file or kind. |
| Lifecycle.NextAsWrittenKeepsSample | src/pc/lua/utils/smlua_audio_utils.c:226-264 | A step as written keeps the sample slot a search finds for a file, since a load only appends a slot for a file that has none. |
| Lifecycle.RunAsWrittenKeepsSample | src/pc/lua/utils/smlua_audio_utils.c:226-264 | After any run as written, the sample slot found for a file is still the one found. |
| Lifecycle.NextKeepsFilesUnique | src/pc/lua/utils/smlua_audio_utils.c:226-264 | No step, corrected or as written, gives two slots the same mod file. |
| Lifecycle.RunKeepsFilesUnique | src/pc/lua/utils/smlua_audio_utils.c:226-264 | After any run, corrected or as written, from a state with one slot per mod file, there is still at most one slot per mod file. |
| Lifecycle.ReachableFilesUnique | src/pc/lua/utils/smlua_audio_utils.c:226-264 | Every state reachable from init, in either version, has at most one slot per mod file, which is what `Registry.LoadDeduplicates` requires. |
| Lifecycle.HalfRegisteredForever | src/pc/lua/utils/smlua_audio_utils.c:242-261 | Once the engine has rejected a fresh stream, after any sequence of later events, as written, both loads still refuse the file as a stream with KindMismatch. A sample load still returns the half-registered slot. |
| Overrides.Reset | src/pc/lua/utils/smlua_audio_utils.c:31-49 | A reset slot is disabled and not loaded, holds no filename and no buffer, and has length 0 and bank 0. |
| Overrides.ResetClearsEveryField | src/pc/lua/utils/smlua_audio_utils.c:31-49 | A reset slot has every field at its zero value whatever it held, and resetting twice is resetting once. |
| Overrides.ResetDisables | src/pc/lua/utils/smlua_audio_utils.c:31-49 | A reset slot is never served to the sequence player. |
| Overrides.ResetAll | src/pc/lua/utils/smlua_audio_utils.c:51-67 | Every slot of the table becomes the all-zero slot, and the table keeps its size. |
| Overrides.ResetAllDisablesAll | src/pc/lua/utils/smlua_audio_utils.c:51-67 | After a reset of the whole table every lookup misses and leaves the table alone, whatever the file would read. |
| Overrides.Lookup | src/pc/lua/utils/smlua_audio_utils.c:69-108 | A hit comes only from an enabled slot in range, with the slot's bank, and leaves that slot loaded with the data returned. A miss changes nothing, and other slots never change. |
| Overrides.LookupRejects | src/pc/lua/utils/smlua_audio_utils.c:69-71 | An out-of-range or disabled sequence is never overridden. |
| Overrides.LookupServesCache | src/pc/lua/utils/smlua_audio_utils.c:73-77 | A loaded slot answers from its cache without reading the file or changing the table. |
| Overrides.LookupCachesFirstRead | src/pc/lua/utils/smlua_audio_utils.c:100-107 | After a hit, later lookups return the same bank and data whatever the file would read. |
| Overrides.ReplaceSequence | src/pc/lua/utils/smlua_audio_utils.c:110-152 | With no active mod, a sequence out of range or a bank of 64 or more, nothing changes. Only the named slot can change, and only when some file of the mod ends with the normalised `sound/<name>.m64`. |
| Overrides.ReplaceSequenceInstallsFirstMatch | src/pc/lua/utils/smlua_audio_utils.c:134-147 | A replacement installs the first matching file with the requested bank and drops the old cache, so the next lookup reads the new file. The engine is re-initialised exactly when the slot was enabled. |

## Left out

- Volume, pan and distance arithmetic (lines 283-285, 496-515, 364-378): it is floating point and depends on camera code outside this file. `audio_stream_get_volume` and `audio_stream_set_volume` are left out with it.
- `audio_stream_get_position` (lines 305-311): it reads the engine's clock, which the model does not have.
- File I/O in `smlua_audio_utils_override`: the outcome of opening and reading the file is the `read` parameter of `Overrides.Lookup`. The length stored is the length of the data read.
- Threading: the end callback runs on the engine's thread. The callback, the drain and `audio_sample_destroy_copies` take `sSampleCopyMutex`, and each is modelled as one atomic step. `audio_sample_play` relinks the handle's list (lines 485-491) without taking the mutex, and the model assumes that relinking is atomic too. In C the old tail's end callback can run between lines 488 and 490, move that copy to the pending list, and then have `next` written into it, which corrupts the lists even with the corrected callback. `Lifecycle.RunWf` and `Lifecycle.NeverDoubleFree` hold only under this atomicity assumption. The unlocked pre-check of the drain (line 423) is not modelled separately either.
- The pool allocator (`dynamic_pool_init`, `dynamic_pool_alloc`, `dynamic_pool_free_pool`) is not part of this model. The pool is an append-only sequence, and allocation failure is `Registry.Env.PoolExhausted`.
- `ma_engine_init` failure in `smlua_audio_custom_init` is only logged. The model starts from the state after it, and `ma_engine_uninit` in deinit is not modelled.
- `str_ends_with` and `normalize_path` are not part of this model. Suffix matching is a plain suffix test on strings, and the normaliser is a function parameter.
- `MAX_AUDIO_OVERRIDE` is defined in a header that is not part of this model. The number of slots is the length of the table, which no operation changes.
- Truncation of paths to `SYS_MAX_PATH` by `snprintf` in `smlua_audio_utils_replace_sequence` is not modelled. Names are taken whole.
- The default-volume bookkeeping and `audio_init` calls of `smlua_audio_utils_reset_all` and `smlua_audio_utils_replace_sequence` belong to the external audio module. The re-initialisation is reported as the boolean result of `Overrides.ReplaceSequence`.
- Streams.SeekTarget: computes the product of length and position on exact reals. The C code converts the length to a 32-bit float and rounds the product (line 319). For 2^24 frames or more the frame can differ: a length of 16777219 frames at position 1.0 seeks to frame 16777220.
- Streams.SeekTargetBounds: claims that position 1 seeks to the length, and that no position up to 1 passes it, only for lengths below 2^24 frames. Above that the rounding of the C code can seek past the end.
- SampleCopies.SamplePlay: `calloc` of the copy and `ma_sound_init_copy` (lines 481-482) are taken to succeed. The C code checks neither result.
- SampleCopies.SamplePlay: on a sample whose sound is not initialised, because the mod destroyed it or the slot is half-registered, play is modelled on the recorded fields: it marks the sound playing, or copies it. In C it calls miniaudio on an uninitialised `ma_sound`, whose effect the model does not describe. The stream operations and `SampleCopies.SampleStop` likewise act on the recorded fields of an uninitialised sound.
- Registry.Load: always receives the active mod. The C code reads `gLuaActiveMod` without a NULL check (line 212), unlike `smlua_audio_utils_replace_sequence` (line 111), so a load with no active mod dereferences NULL. `Registry.LoadAsWritten` makes the same assumption.
- ModAudio.SoundEnds: only the base sound of a handle reaching its end is an event. A copy reaching its end is the end callback. The engine's timing is not modelled: the event may happen at any point while the sound plays.
- Overrides.ResetAll: models the build without `VERSION_EU`. In an EU build the loop returns at the first enabled slot at or past `SEQ_EVENT_CUTSCENE_LAKITU` (line 58), and that slot and the later ones are not reset. The sequence constants are defined in headers that are not part of this model.
- Streams.StreamSetPosition: requires a non-negative position, because converting a negative product to `u64` is undefined behaviour in C.
- SampleCopies.Walk: a walk follows at most as many links as copies were ever allocated. `SampleCopies.WalkCoversList` shows the bound is never reached in a well-formed state, but a walk in an ill-formed state is cut short there.
- Lifecycle.Possible: events naming a slot outside the pool, or a copy that is not live, are treated as impossible and change nothing. A mod can only name handles it was given, and the engine reports each live copy once.
- Lifecycle.Next: its own contract states only that pointers stay valid and that impossible events change nothing. What each step does is stated by the operation it calls, and `Lifecycle.NextWf` states the invariant.

## Findings

| source | as written | input that shows it | evidently intended | confidence | as-written member | corrected member |
|---|---|---|---|---|---|---|
| src/pc/lua/utils/smlua_audio_utils.c:403-405 | The end callback clears the parent's tail only when the finishing copy had no neighbours. A finishing tail with a predecessor stays the parent's tail while it moves to the pending list. | Play a sample three times while it sounds (two copies, 0 then 1). Copy 1 finishes, then a frame drains the pending list, then `audio_sample_stop`. Copy 1 is uninitialised and freed twice. Copy 0 is still sounding after the stop but on no list, so the stop does not free it; it is freed only after its own end callback and the next drain. | When the finishing copy is the tail, the tail moves back to its predecessor, which is NULL when it had none. | high, not executed | SampleCopies.EndCallbackAsWritten, SampleCopies.StaleTail, SampleCopies.StaleTailDoubleFree | SampleCopies.EndCallback, SampleCopies.CorrectedTailFreesOnce, Lifecycle.NeverDoubleFree |
| src/pc/lua/utils/smlua_audio_utils.c:242-261 | When `ma_sound_init_from_file` fails, the slot is already allocated with `file` set, and `isStream` is never assigned. The slot stays registered as a sample with no initialised sound. | Load `music.ogg` as a stream, with the engine rejecting it. Every later stream load of the file fails with a kind mismatch, and a sample load returns the uninitialised slot. | A failed load leaves no trace, so the file can be loaded later as either kind. | high, not executed | Registry.LoadAsWritten, Registry.HalfRegisteredSlot, Lifecycle.HalfRegisteredForever | Registry.Load, Registry.FailedLoadCanBeRetried |
| src/pc/lua/utils/smlua_audio_utils.c:520-534 | Shutdown calls the destroy operation on every slot of the pool. That includes a sample a mod already destroyed with `audio_sample_destroy` (lines 452-461) and a stream destroyed with `audio_stream_destroy` (lines 271-277), whose slots stay in the pool. It also includes a half-registered slot (lines 242-261), whose sound was never initialised. | Load one sample, call `audio_sample_destroy` on it, then deinitialise: `ma_sound_uninit` is called twice on the same sound. | Each initialised sound is uninitialised exactly once, and no other: shutdown skips a sound that is not initialised, whether destroyed or never opened. | medium, not executed | Lifecycle.ShutdownFromAsWritten, Lifecycle.DestroyedSampleUninitTwice | Lifecycle.ShutdownFrom, Lifecycle.ShutdownUninitsOnce, Lifecycle.DestroyedSampleUninitOnce |

=== FILE: audio.dfy ===
/** The state of the mod-audio subsystem: the pool of long-lived audio handles
    (`struct ModAudio`), the sample copies (`struct ModAudioSampleCopies`) with
    their intrusive `prev`/`next` links, and the global pending list.

    Memory is modelled explicitly so that the pointer-level behaviour can be
    stated: `nodes` holds every copy ever allocated, in allocation order, and
    a copy's address is its position there; a freed copy keeps its last
    contents (as freed memory does until it is reused, which the model never
    does); `live` is the set of copies allocated and
    not yet freed; `released` counts, per copy, how many times it has been
    uninitialised and freed. The miniaudio engine is represented by the
    `Sound` record and by `finished`, the copies whose end callback has run. */
module ModAudio {
  import opened Base

  /** The address of a sample copy. */
  type CopyId = nat

  /** The index of a handle in the pool, in allocation order. */
  type HandleId = nat

  /** The identity of a `struct ModFile` record: `&mods[mod].files[index]`.
      Handles are deduplicated by this identity, not by path. */
  datatype FileRef = FileRef(mod: nat, index: nat)

  /** The active mod: its identity and its file table. */
  datatype Mod = Mod(id: nat, files: seq<ModFile>)

  /** What the engine knows of one `ma_sound`: whether it was initialised,
      whether it is sounding, its cursor and length in PCM frames, its looping
      flag and pitch, and how many times `ma_sound_uninit` was called on it. */
  datatype Sound = Sound(ready: bool, playing: bool, frame: nat, length: nat,
                         looping: bool, pitch: real, uninits: nat)

  /** A zero-filled `ma_sound`, as a freshly allocated pool slot holds it. */
  const ZeroSound := Sound(false, false, 0, 0, false, 0.0, 0)

  /** `ma_sound_uninit`: the sound stops and is no longer usable; the
      counter records the call. */
  function Uninit(snd: Sound): Sound
  {
    snd.(ready := false, playing := false, uninits := snd.uninits + 1)
  }

  /** One `struct ModAudio`. `file` is NULL only in a slot no load has
      written. `copiesTail` is `sampleCopiesTail`. */
  datatype Handle = Handle(file: Option<FileRef>, isStream: bool, sound: Sound,
                           copiesTail: Option<CopyId>)

  /** One `struct ModAudioSampleCopies`, without its sound: the copy's
      sound is live exactly while the copy is. */
  datatype Node = Node(parent: HandleId, prev: Option<CopyId>, next: Option<CopyId>)

  datatype AudioState = AudioState(
    pool: seq<Handle>,
    nodes: seq<Node>,
    live: set<CopyId>,
    finished: set<CopyId>,
    released: multiset<CopyId>,
    pendingTail: Option<CopyId>)

  /** The state after `smlua_audio_custom_init`: an empty pool, no copies. */
  const Init := AudioState([], [], {}, {}, multiset{}, None)

  /** `p` is NULL or the address of an allocated copy. */
  predicate Points(nodes: seq<Node>, p: Option<CopyId>)
  {
    p.Some? ==> p.value < |nodes|
  }

  /** Every `prev` link of `nodes` leads to an allocated copy. */
  ghost predicate PrevClosed(nodes: seq<Node>)
  {
    forall c :: 0 <= c < |nodes| ==> Points(nodes, nodes[c].prev)
  }

  /** Every link of `nodes` leads to an allocated copy. */
  ghost predicate Closed(nodes: seq<Node>)
  {
    && PrevClosed(nodes)
    && forall c :: 0 <= c < |nodes| ==> Points(nodes, nodes[c].next)
  }

  /** Relinking leaves the allocated copies and their parents alone. */
  ghost predicate SameCopies(nodes: seq<Node>, nodes': seq<Node>)
  {
    |nodes'| == |nodes| && forall c :: 0 <= c < |nodes| ==> nodes'[c].parent == nodes[c].parent
  }

  /** Every pointer held in the state refers to memory that was allocated
      (possibly freed since): parents are pool slots, links and tails are
      copies. This is what the C code needs to dereference its pointers at
      all; the stronger list invariant lives in the SampleCopies module. */
  ghost predicate ValidPointers(s: AudioState)
  {
    && (forall c :: 0 <= c < |s.nodes| ==> s.nodes[c].parent < |s.pool|)
    && Closed(s.nodes)
    && (forall h :: 0 <= h < |s.pool| ==> Points(s.nodes, s.pool[h].copiesTail))
    && Points(s.nodes, s.pendingTail)
    && (forall c :: c in s.live ==> c < |s.nodes|)
    && (forall c :: c in s.finished ==> c < |s.nodes|)
  }

  /** The state with handle `h`'s sound replaced. */
  function WithSound(s: AudioState, h: HandleId, snd: Sound): (r: AudioState)
    requires h < |s.pool|
    ensures |r.pool| == |s.pool| && r.pool[h].sound == snd
    ensures r.pool[h] == s.pool[h].(sound := snd)
    ensures forall g {:trigger r.pool[g]} :: 0 <= g < |s.pool| && g != h ==> r.pool[g] == s.pool[g]
    ensures r == s.(pool := r.pool)
  {
    s.(pool := s.pool[h := s.pool[h].(sound := snd)])
  }

  /** The engine reaching the end of handle `h`'s sound on its own. A
      playing sound that does not loop stops with its cursor at the end; a
      looping sound wraps around and plays on. */
  function SoundEnds(s: AudioState, h: HandleId): (r: AudioState)
    requires h < |s.pool|
    ensures |r.pool| == |s.pool|
    ensures r == WithSound(s, h, r.pool[h].sound)
    ensures var was, now := s.pool[h].sound, r.pool[h].sound;
            && now == was.(playing := now.playing, frame := now.frame)
            && (now.ready && !now.looping ==> !now.playing)
            && (was.looping || !was.playing ==> r == s)
            && (now.playing != was.playing ==> now.frame == now.length)
  {
    var snd := s.pool[h].sound;
    if snd.ready && snd.playing && !snd.looping then
      WithSound(s, h, snd.(playing := false, frame := snd.length))
    else s
  }

  /** `audio_sanity_check`: the handle pointer is not NULL and its kind is the
      one the operation is for. A handle is a pool index; NULL is None. */
  function SanityCheck(pool: seq<Handle>, audio: Option<HandleId>, isStream: bool): (ok: bool)
    requires audio.Some? ==> audio.value < |pool|
    ensures ok <==> audio.Some? && pool[audio.value].isStream == isStream
  {
    if audio.None? then false
    else if isStream && !pool[audio.value].isStream then false
    else if !isStream && pool[audio.value].isStream then false
    else true
  }
}

=== FILE: base.dfy ===
/** Small shared vocabulary: the optional value used in place of a C pointer
    that may be NULL, the 8-bit unsigned integer of the Lua-facing API, and
    the suffix test the audio utilities use to match paths. */
module Base {

  /** A C pointer that may be NULL. */
  datatype Option<T> = None | Some(value: T)

  /** A file of the active mod as the mod loader lists it: its path inside
      the mod and the path of its cached copy on disk. */
  datatype ModFile = ModFile(relativePath: string, cachedPath: string)

  /** The C `u8` type. */
  newtype u8 = x: int | 0 <= x < 256

  /** `str_ends_with(s, suffix)`: true when `suffix` is a trailing part of `s`.
      The comparison is exact, character by character. */
  predicate EndsWith(s: string, suffix: string)
  {
    |suffix| <= |s| && s[|s| - |suffix|..] == suffix
  }

  /** The first file of a mod, from index `from` on, whose relative path,
      once passed through `normalize`, ends with `path`: the search loop over
      `gLuaActiveMod->files` that both the audio loader (which does not
      normalise) and the sequence replacer (which does) perform. */
  function FirstEndingWith(files: seq<ModFile>, path: string,
                           normalize: string -> string, from: nat): (r: Option<nat>)
    requires from <= |files|
    ensures r.Some? ==> from <= r.value < |files|
                        && EndsWith(normalize(files[r.value].relativePath), path)
                        && forall k :: from <= k < r.value ==>
                             !EndsWith(normalize(files[k].relativePath), path)
    ensures r.None? ==> forall k :: from <= k < |files| ==>
                          !EndsWith(normalize(files[k].relativePath), path)
    decreases |files| - from
  {
    if from == |files| then None
    else if EndsWith(normalize(files[from].relativePath), path) then Some(from)
    else FirstEndingWith(files, path, normalize, from + 1)
  }

  /** The last element of a sequence, or None for the empty sequence: the
      tail pointer of an intrusive list whose elements, head first, are `xs`. */
  function Last<T>(xs: seq<T>): (r: Option<T>)
    ensures r.None? <==> |xs| == 0
    ensures r.Some? ==> r.value in xs
  {
    if |xs| == 0 then None else Some(xs[|xs| - 1])
  }

  /** No element occurs twice. */
  ghost predicate Distinct<T>(xs: seq<T>)
  {
    forall i, j :: 0 <= i < j < |xs| ==> xs[i] != xs[j]
  }

  /** In a sequence without repetitions every element occurs exactly once. */
  lemma {:induction false} DistinctCount<T>(xs: seq<T>)
    requires Distinct(xs)
    ensures forall x :: multiset(xs)[x] == (if x in xs then 1 else 0)
  {
    if |xs| > 0 {
      var rest := xs[1..];
      assert Distinct(rest) by {
        forall i, j | 0 <= i < j < |rest| ensures rest[i] != rest[j] {
          assert rest[i] == xs[i + 1] && rest[j] == xs[j + 1];
        }
      }
      DistinctCount(rest);
      assert xs == [xs[0]] + rest;
      assert multiset(xs) == multiset{xs[0]} + multiset(rest);
      assert xs[0] !in rest by {
        forall k | 0 <= k < |rest| ensures rest[k] != xs[0] {
          assert rest[k] == xs[k + 1];
        }
      }
      forall x ensures multiset(xs)[x] == (if x in xs then 1 else 0) {
        assert x in xs <==> x == xs[0] || x in rest;
      }
    }
  }

  /** A sequence without repetitions drawn from a finite set is no longer
      than the set is large. */
  lemma {:induction false} DistinctBound<T>(xs: seq<T>, s: set<T>)
    requires Distinct(xs)
    requires forall i :: 0 <= i < |xs| ==> xs[i] in s
    ensures |xs| <= |s|
  {
    if |xs| > 0 {
      var rest := xs[1..];
      assert Distinct(rest) by {
        forall i, j | 0 <= i < j < |rest| ensures rest[i] != rest[j] {
          assert rest[i] == xs[i + 1] && rest[j] == xs[j + 1];
        }
      }
      forall i | 0 <= i < |rest| ensures rest[i] in s - {xs[0]} {
        assert rest[i] == xs[i + 1];
      }
      DistinctBound(rest, s - {xs[0]});
    }
  }

  /** The natural numbers below `n`. */
  function Indices(n: nat): (r: set<nat>)
    ensures forall i :: i in r <==> 0 <= i < n
  {
    if n == 0 then {} else Indices(n - 1) + {n - 1}
  }

  /** There are `n` natural numbers below `n`. */
  lemma {:induction false} IndicesCount(n: nat)
    ensures |Indices(n)| == n
  {
    if n > 0 {
      IndicesCount(n - 1);
    }
  }
}

=== FILE: copies.dfy ===
/** The sample-copy lifecycle. A sample retriggered while its base sound is
    still playing gets a copy, linked at the tail of its handle's list; when
    the engine reports the copy finished, the end callback moves it to the
    global pending list; once per frame the pending list is drained, and a
    stop or destroy of the handle drains the handle's own list at once.

    The end callback runs on the engine's thread under a mutex that every
    other list operation also takes; each operation here is one atomic
    transition. The callback is an environment step: the engine runs it at
    most once per copy, and only for a copy whose sound is still alive.

    `Wf(s, v)` is the list invariant: the links of `s` spell the lists
    described by the view `v`, every live copy is in exactly one of them
    (its handle's list while it plays, the pending list once it has
    finished), and every freed copy has been released exactly once. */
module SampleCopies {
  import opened Base
  import opened ModAudio
  import opened Links

  /** The lists, head first: one per pool slot, and the pending list. */
  datatype View = View(active: seq<seq<CopyId>>, pending: seq<CopyId>)

  /** Each handle's list holds only playing copies of that handle. */
  ghost predicate ActiveMembers(s: AudioState, v: View)
  {
    forall h, i :: 0 <= h < |v.active| && 0 <= i < |v.active[h]| ==>
      v.active[h][i] in s.live && v.active[h][i] !in s.finished
      && v.active[h][i] < |s.nodes| && s.nodes[v.active[h][i]].parent == h
  }

  /** Each handle's list is linked and ends at the handle's tail pointer. */
  ghost predicate ActiveLinked(s: AudioState, v: View)
    requires |v.active| == |s.pool|
  {
    forall h :: 0 <= h < |s.pool| ==>
      Linked(s.nodes, v.active[h]) && s.pool[h].copiesTail == Last(v.active[h])
  }

  /** A stream never has copies. */
  ghost predicate StreamsIdle(s: AudioState, v: View)
    requires |v.active| == |s.pool|
  {
    forall h :: 0 <= h < |s.pool| && s.pool[h].isStream ==> v.active[h] == []
  }

  /** Each handle's list is linked and ends at the handle's tail pointer,
      holds only playing copies of that handle, and is empty for a stream. */
  ghost predicate ActiveListsWf(s: AudioState, v: View)
    requires |v.active| == |s.pool|
  {
    ActiveLinked(s, v) && StreamsIdle(s, v) && ActiveMembers(s, v)
  }

  /** The pending list is linked, ends at the pending tail pointer and holds
      only finished copies that are not yet freed. */
  ghost predicate PendingWf(s: AudioState, v: View)
  {
    && Linked(s.nodes, v.pending)
    && s.pendingTail == Last(v.pending)
    && (forall i :: 0 <= i < |v.pending| ==> v.pending[i] in s.live && v.pending[i] in s.finished)
  }

  /** Every live copy is in the list its state calls for, and every freed
      copy was released exactly once. */
  ghost predicate AccountingWf(s: AudioState, v: View)
    requires ValidPointers(s) && |v.active| == |s.pool|
  {
    && (forall c :: c in s.live && c !in s.finished ==> c in v.active[s.nodes[c].parent])
    && (forall c :: c in s.live && c in s.finished ==> c in v.pending)
    && (forall c: CopyId :: s.released[c] == (if c < |s.nodes| && c !in s.live then 1 else 0))
  }

  ghost predicate Wf(s: AudioState, v: View)
  {
    && ValidPointers(s)
    && |v.active| == |s.pool|
    && ActiveListsWf(s, v)
    && PendingWf(s, v)
    && AccountingWf(s, v)
  }

  /** A position of `c` in `xs`. */
  ghost function IndexOf(xs: seq<CopyId>, c: CopyId): (k: nat)
    requires c in xs
    ensures k < |xs| && xs[k] == c
  {
    var k :| 0 <= k < |xs| && xs[k] == c; k
  }

  // ---------------------------------------------------------------------
  // Transitions
  // ---------------------------------------------------------------------

  /** `audio_sample_play`, without the volume and pan arithmetic. When the
      base sound is not playing it is started and no copy is made; when it
      is, a new copy (`calloc`, `ma_sound_init_copy`) is appended at the
      tail of the handle's list and started instead. */
  function SamplePlay(s: AudioState, audio: Option<HandleId>): (r: AudioState)
    requires ValidPointers(s)
    requires audio.Some? ==> audio.value < |s.pool|
    ensures ValidPointers(r) && |r.pool| == |s.pool|
    ensures !SanityCheck(s.pool, audio, false) ==> r == s
    ensures SanityCheck(s.pool, audio, false) && !s.pool[audio.value].sound.playing ==>
              r.nodes == s.nodes && r.live == s.live
              && r.pool[audio.value].copiesTail == s.pool[audio.value].copiesTail
              && r.pool[audio.value].sound.playing
    ensures SanityCheck(s.pool, audio, false) && s.pool[audio.value].sound.playing ==>
              var c := |s.nodes|;
              && |r.nodes| == c + 1 && r.live == s.live + {c}
              && r.nodes[c] == Node(audio.value, s.pool[audio.value].copiesTail, None)
              && r.pool[audio.value].copiesTail == Some(c)
              && r.pool[audio.value].sound == s.pool[audio.value].sound
    ensures forall h {:trigger r.pool[h]} :: 0 <= h < |s.pool| && Some(h) != audio ==> r.pool[h] == s.pool[h]
    ensures r.released == s.released && r.finished == s.finished && r.pendingTail == s.pendingTail
  {
    if !SanityCheck(s.pool, audio, false) then s
    else
      var h := audio.value;
      var handle := s.pool[h];
      if handle.sound.playing then
        var c := |s.nodes|;
        var nodes := LinkAtTail(s.nodes + [Node(h, None, None)], handle.copiesTail, c);
        s.(pool := s.pool[h := handle.(copiesTail := Some(c))],
           nodes := nodes, live := s.live + {c})
      else
        WithSound(s, h, handle.sound.(playing := true))
  }

  /** A sample whose base sound played to its end on its own is idle
      again: playing it restarts the base sound instead of making a copy. */
  lemma EndedSampleMakesNoCopy(s: AudioState, h: HandleId)
    requires ValidPointers(s) && h < |s.pool| && !s.pool[h].isStream
    requires s.pool[h].sound.ready && s.pool[h].sound.playing && !s.pool[h].sound.looping
    ensures |SamplePlay(s, Some(h)).nodes| == |s.nodes| + 1
    ensures SamplePlay(SoundEnds(s, h), Some(h)).nodes == s.nodes
    ensures SamplePlay(SoundEnds(s, h), Some(h)).pool[h].sound.playing
  {
  }

  /** `audio_sample_copy_end_callback` as written: the tail pointer of the
      parent is cleared only when the copy had no neighbours (lines 403-405),
      so a finishing copy that is its parent's tail and has a predecessor
      stays the parent's tail while it moves to the pending list. */
  function EndCallbackAsWritten(s: AudioState, c: CopyId): (r: AudioState)
    requires ValidPointers(s)
    requires c in s.live && c !in s.finished
    ensures ValidPointers(r) && |r.pool| == |s.pool|
    ensures r.pendingTail == Some(c) && r.finished == s.finished + {c}
    ensures r.live == s.live && r.released == s.released
    ensures s.pendingTail != Some(c) ==> r.nodes[c] == Node(s.nodes[c].parent, s.pendingTail, None)
    ensures var p := s.nodes[c].parent;
            s.nodes[c].prev != Some(c) && s.nodes[c].next != Some(c) ==>
              r.pool[p].copiesTail
              == (if s.nodes[c].prev.None? && s.nodes[c].next.None? then None
                  else s.pool[p].copiesTail)
    ensures var p := s.nodes[c].parent;
            r.pool[p] == s.pool[p].(copiesTail := r.pool[p].copiesTail)
    ensures forall g {:trigger r.pool[g]} :: 0 <= g < |s.pool| && g != s.nodes[c].parent ==>
              r.pool[g] == s.pool[g]
  {
    var unlinked := Unlink(s.nodes, c);
    var parent := s.nodes[c].parent;
    var pool := if unlinked[c].next.None? && unlinked[c].prev.None?
                then s.pool[parent := s.pool[parent].(copiesTail := None)]
                else s.pool;
    s.(pool := pool,
       nodes := LinkAtTail(Detach(s.nodes, c), s.pendingTail, c),
       pendingTail := Some(c),
       finished := s.finished + {c})
  }

  /** The end callback as intended: when the finishing copy is its parent's
      tail, the tail moves back to the copy's predecessor (which is NULL
      exactly when the copy had no neighbours). */
  function EndCallback(s: AudioState, c: CopyId): (r: AudioState)
    requires ValidPointers(s)
    requires c in s.live && c !in s.finished
    ensures ValidPointers(r) && |r.pool| == |s.pool|
    ensures r.pendingTail == Some(c) && r.finished == s.finished + {c}
    ensures r.live == s.live && r.released == s.released
    ensures s.pendingTail != Some(c) ==> r.nodes[c] == Node(s.nodes[c].parent, s.pendingTail, None)
    ensures var p := s.nodes[c].parent;
            r.pool[p].copiesTail
            == (if s.pool[p].copiesTail == Some(c) then s.nodes[c].prev else s.pool[p].copiesTail)
    ensures var p := s.nodes[c].parent;
            r.pool[p] == s.pool[p].(copiesTail := r.pool[p].copiesTail)
    ensures forall g {:trigger r.pool[g]} :: 0 <= g < |s.pool| && g != s.nodes[c].parent ==>
              r.pool[g] == s.pool[g]
  {
    var parent := s.nodes[c].parent;
    var pool := if s.pool[parent].copiesTail == Some(c)
                then s.pool[parent := s.pool[parent].(copiesTail := s.nodes[c].prev)]
                else s.pool;
    s.(pool := pool,
       nodes := LinkAtTail(Detach(s.nodes, c), s.pendingTail, c),
       pendingTail := Some(c),
       finished := s.finished + {c})
  }

  /** The copies a walk from `tail` through the `prev` links frees. The
      fuel, the number of copies ever allocated, is never the limit in a
      well-formed state. */
  function Walk(s: AudioState, tail: Option<CopyId>): (r: seq<CopyId>)
    requires ValidPointers(s)
    requires Points(s.nodes, tail)
    ensures forall i :: 0 <= i < |r| ==> r[i] < |s.nodes|
  {
    WalkBack(s.nodes, tail, |s.nodes|)
  }

  /** Uninitialising and freeing every copy of `freed`. Freed memory keeps
      its contents; the copies leave `live` and each is counted once more
      in `released`. */
  function Release(s: AudioState, freed: seq<CopyId>): (r: AudioState)
  {
    s.(live := s.live - (set c | c in freed), released := s.released + multiset(freed))
  }

  /** `audio_sample_destroy_pending_copies`: with a non-empty pending list,
      free every copy reached from the pending tail and empty the list. */
  function DrainPending(s: AudioState): (r: AudioState)
    requires ValidPointers(s)
    ensures ValidPointers(r) && r.pendingTail.None?
    ensures r.pool == s.pool && r.nodes == s.nodes && r.finished == s.finished
    ensures r.live <= s.live
    ensures s.pendingTail.None? ==> r == s
  {
    if s.pendingTail.None? then s
    else Release(s, Walk(s, s.pendingTail)).(pendingTail := None)
  }

  /** `audio_sample_destroy_copies`: free every copy reached from the
      handle's tail and clear the tail. */
  function DestroyCopies(s: AudioState, h: HandleId): (r: AudioState)
    requires ValidPointers(s)
    requires h < |s.pool|
    ensures ValidPointers(r) && |r.pool| == |s.pool|
    ensures r.pool[h] == s.pool[h].(copiesTail := None)
    ensures forall g {:trigger r.pool[g]} :: 0 <= g < |s.pool| && g != h ==> r.pool[g] == s.pool[g]
    ensures r.nodes == s.nodes && r.pendingTail == s.pendingTail && r.finished == s.finished
  {
    Release(s, Walk(s, s.pool[h].copiesTail))
      .(pool := s.pool[h := s.pool[h].(copiesTail := None)])
  }

  /** `audio_sample_stop`: eagerly destroy the handle's copies, then stop the
      base sound and rewind it to frame 0. */
  function SampleStop(s: AudioState, audio: Option<HandleId>): (r: AudioState)
    requires ValidPointers(s)
    requires audio.Some? ==> audio.value < |s.pool|
    ensures ValidPointers(r) && |r.pool| == |s.pool|
    ensures !SanityCheck(s.pool, audio, false) ==> r == s
    ensures SanityCheck(s.pool, audio, false) ==>
              var h := audio.value;
              && r.pool[h].copiesTail.None?
              && !r.pool[h].sound.playing && r.pool[h].sound.frame == 0
              && r.pool[h].sound == s.pool[h].sound.(playing := false, frame := 0)
              && r.pool[h].file == s.pool[h].file && r.pool[h].isStream == s.pool[h].isStream
    ensures forall g {:trigger r.pool[g]} :: 0 <= g < |s.pool| && Some(g) != audio ==> r.pool[g] == s.pool[g]
    ensures r.nodes == s.nodes && r.pendingTail == s.pendingTail && r.finished == s.finished
  {
    if !SanityCheck(s.pool, audio, false) then s
    else
      var h := audio.value;
      var s1 := if s.pool[h].copiesTail.Some? then DestroyCopies(s, h) else s;
      WithSound(s1, h, s1.pool[h].sound.(playing := false, frame := 0))
  }

  /** `audio_sample_destroy`: eagerly destroy the handle's copies, then
      uninitialise the base sound. The slot itself stays in the pool. */
  function SampleDestroy(s: AudioState, audio: Option<HandleId>): (r: AudioState)
    requires ValidPointers(s)
    requires audio.Some? ==> audio.value < |s.pool|
    ensures ValidPointers(r) && |r.pool| == |s.pool|
    ensures !SanityCheck(s.pool, audio, false) ==> r == s
    ensures SanityCheck(s.pool, audio, false) ==>
              var h := audio.value;
              && r.pool[h].copiesTail.None?
              && r.pool[h].sound.uninits == s.pool[h].sound.uninits + 1
              && !r.pool[h].sound.ready && !r.pool[h].sound.playing
              && r.pool[h].file == s.pool[h].file && r.pool[h].isStream == s.pool[h].isStream
    ensures forall g {:trigger r.pool[g]} :: 0 <= g < |s.pool| && Some(g) != audio ==> r.pool[g] == s.pool[g]
    ensures r.nodes == s.nodes && r.pendingTail == s.pendingTail && r.finished == s.finished
  {
    if !SanityCheck(s.pool, audio, false) then s
    else
      var h := audio.value;
      var s1 := if s.pool[h].copiesTail.Some? then DestroyCopies(s, h) else s;
      WithSound(s1, h, Uninit(s1.pool[h].sound))
  }

  // ---------------------------------------------------------------------
  // The list invariant
  // ---------------------------------------------------------------------

  /** The initial state has no copies: every list is empty. */
  lemma InitWf()
    ensures Wf(Init, View([], []))
  {
  }

  /** A change to one handle's sound, and to nothing else, keeps the list
      invariant with the same lists. */
  lemma SoundChangeWf(s: AudioState, v: View, h: HandleId, snd: Sound)
    requires Wf(s, v) && h < |s.pool|
    ensures Wf(WithSound(s, h, snd), v)
  {
    var r := WithSound(s, h, snd);
    assert forall g :: 0 <= g < |s.pool| ==> r.pool[g].copiesTail == s.pool[g].copiesTail;
  }

  /** The base sound is started or is copied: whether the copy branch of
      `SamplePlay` is taken. */
  predicate Copies(s: AudioState, audio: Option<HandleId>)
    requires audio.Some? ==> audio.value < |s.pool|
  {
    SanityCheck(s.pool, audio, false) && s.pool[audio.value].sound.playing
  }

  /** The view after `SamplePlay`: a new copy is appended to the handle's
      list exactly when the base sound was already playing. */
  ghost function PlayView(s: AudioState, v: View, audio: Option<HandleId>): View
    requires audio.Some? ==> audio.value < |s.pool|
    requires |v.active| == |s.pool|
  {
    if Copies(s, audio)
    then v.(active := v.active[audio.value := v.active[audio.value] + [|s.nodes|]])
    else v
  }

  /** Playing a sample keeps the list invariant. */
  lemma SamplePlayWf(s: AudioState, v: View, audio: Option<HandleId>)
    requires Wf(s, v)
    requires audio.Some? ==> audio.value < |s.pool|
    ensures Wf(SamplePlay(s, audio), PlayView(s, v, audio))
  {
    if !SanityCheck(s.pool, audio, false) {
    } else if !Copies(s, audio) {
      var h := audio.value;
      SoundChangeWf(s, v, h, s.pool[h].sound.(playing := true));
    } else {
      CopyWf(s, v, audio);
    }
  }

  /** A new copy keeps the list invariant, with the copy at the end of its
      handle's list. */
  lemma CopyWf(s: AudioState, v: View, audio: Option<HandleId>)
    requires Wf(s, v)
    requires audio.Some? ==> audio.value < |s.pool|
    requires Copies(s, audio)
    ensures Wf(SamplePlay(s, audio), PlayView(s, v, audio))
  {
    CopyLinked(s, v, audio);
    CopyMembers(s, v, audio);
    CopyAccounting(s, v, audio);
  }

  /** The lists after a copy is made: the handle's list gains the copy at
      its tail, and the other lists keep their links. */
  lemma CopyLinked(s: AudioState, v: View, audio: Option<HandleId>)
    requires Wf(s, v)
    requires audio.Some? ==> audio.value < |s.pool|
    requires Copies(s, audio)
    ensures var r := SamplePlay(s, audio);
            var v' := PlayView(s, v, audio);
            |v'.active| == |r.pool| && ActiveLinked(r, v') && StreamsIdle(r, v') && PendingWf(r, v')
  {
    var r := SamplePlay(s, audio);
    var v' := PlayView(s, v, audio);
    var h := audio.value;
    forall g, i | 0 <= g < |v.active| && g != h && 0 <= i < |v.active[g]|
      ensures Some(v.active[g][i]) != Last(v.active[h])
    {
      assert s.nodes[v.active[g][i]].parent == g;
    }
    LinkNewAtTail(s.nodes, v.active, h, v.pending, Node(h, None, None));
    var c := |s.nodes|;
    forall g | 0 <= g < |r.pool|
      ensures Linked(r.nodes, v'.active[g]) && r.pool[g].copiesTail == Last(v'.active[g])
    {
      if g == h { assert v'.active[g] == v.active[h] + [c]; }
    }
  }

  /** After a copy is made each list still holds playing copies of its
      handle: the new copy is one. */
  lemma CopyMembers(s: AudioState, v: View, audio: Option<HandleId>)
    requires ValidPointers(s) && |v.active| == |s.pool| && ActiveMembers(s, v)
    requires audio.Some? ==> audio.value < |s.pool|
    requires Copies(s, audio)
    ensures ActiveMembers(SamplePlay(s, audio), PlayView(s, v, audio))
  {
    var r := SamplePlay(s, audio);
    var v' := PlayView(s, v, audio);
    var h := audio.value;
    var c := |s.nodes|;
    forall g, i | 0 <= g < |v'.active| && 0 <= i < |v'.active[g]|
      ensures v'.active[g][i] in r.live && v'.active[g][i] !in r.finished
              && v'.active[g][i] < |r.nodes| && r.nodes[v'.active[g][i]].parent == g
    {
      if g == h && i == |v.active[h]| {
        assert v'.active[g][i] == c;
      } else {
        assert v'.active[g][i] == v.active[g][i];
      }
    }
  }

  /** After a copy is made every live copy is still on the list its state
      calls for, and nothing was released. */
  lemma CopyAccounting(s: AudioState, v: View, audio: Option<HandleId>)
    requires Wf(s, v)
    requires audio.Some? ==> audio.value < |s.pool|
    requires Copies(s, audio)
    ensures var r := SamplePlay(s, audio);
            var v' := PlayView(s, v, audio);
            |v'.active| == |r.pool| && AccountingWf(r, v')
  {
    var r := SamplePlay(s, audio);
    var v' := PlayView(s, v, audio);
    var h := audio.value;
    var c := |s.nodes|;
    forall d | d in r.live && d !in r.finished ensures d in v'.active[r.nodes[d].parent] {
      if d != c {
        var p := s.nodes[d].parent;
        assert r.nodes[d].parent == p;
        assert d in v.active[p];
        if p == h {
          assert v'.active[h] == v.active[h] + [c];
        }
      }
    }
    forall d: CopyId ensures r.released[d] == (if d < |r.nodes| && d !in r.live then 1 else 0) {
      if d == c {
        assert s.released[d] == 0;
      }
    }
  }

  /** The view after the end callback of copy `c`: `c` leaves its parent's
      list and becomes the last element of the pending list. */
  ghost function CallbackView(s: AudioState, v: View, c: CopyId): View
    requires ValidPointers(s) && |v.active| == |s.pool|
    requires c in s.live && c in v.active[s.nodes[c].parent]
  {
    var p := s.nodes[c].parent;
    View(v.active[p := RemoveAt(v.active[p], IndexOf(v.active[p], c))], v.pending + [c])
  }

  /** The links after the end callback spell the lists of `CallbackView`. */
  lemma CallbackLinks(s: AudioState, v: View, c: CopyId)
    requires ValidPointers(s) && |v.active| == |s.pool|
    requires ActiveLinked(s, v) && ActiveMembers(s, v) && PendingWf(s, v)
    requires c in s.live && c !in s.finished && c in v.active[s.nodes[c].parent]
    ensures var v' := CallbackView(s, v, c);
            var nodes := LinkAtTail(Detach(s.nodes, c), s.pendingTail, c);
            && (forall g :: 0 <= g < |v'.active| ==> Linked(nodes, v'.active[g]))
            && Linked(nodes, v'.pending)
  {
    var p := s.nodes[c].parent;
    var xs := v.active[p];
    var k := IndexOf(xs, c);
    var v' := CallbackView(s, v, c);
    forall g, i, j | 0 <= g < |v.active| && g != p && 0 <= i < |v.active[g]| && 0 <= j < |xs|
      ensures v.active[g][i] != xs[j]
    {
      assert s.nodes[v.active[g][i]].parent == g;
    }
    forall i, j | 0 <= i < |v.pending| && 0 <= j < |xs| ensures v.pending[i] != xs[j] {
    }
    MoveToTail(s.nodes, v.active, p, k, v.pending);
    var nodes := LinkAtTail(Detach(s.nodes, c), s.pendingTail, c);
    forall g | 0 <= g < |v'.active| ensures Linked(nodes, v'.active[g]) {
    }
  }

  /** The corrected end callback keeps the list invariant: the copy leaves
      its parent's list, the parent's tail stays the last copy of that list,
      and the copy becomes the pending tail. */
  lemma EndCallbackWf(s: AudioState, v: View, c: CopyId)
    requires Wf(s, v)
    requires c in s.live && c !in s.finished
    ensures Wf(EndCallback(s, c), CallbackView(s, v, c))
  {
    CallbackLinked(s, v, c);
    CallbackStreams(s, v, c);
    CallbackMembers(s, v, c);
    CallbackPending(s, v, c);
    CallbackAccounting(s, v, c);
  }

  /** After the corrected callback the handles' lists are linked and end
      at their tail pointers. */
  lemma CallbackLinked(s: AudioState, v: View, c: CopyId)
    requires Wf(s, v)
    requires c in s.live && c !in s.finished
    ensures ActiveLinked(EndCallback(s, c), CallbackView(s, v, c))
  {
    CallbackLinks(s, v, c);
    CallbackTails(s, v, c);
  }

  /** After the corrected callback the pending list is linked, ends at the
      copy and holds finished copies only. */
  lemma CallbackPending(s: AudioState, v: View, c: CopyId)
    requires Wf(s, v)
    requires c in s.live && c !in s.finished
    ensures PendingWf(EndCallback(s, c), CallbackView(s, v, c))
  {
    CallbackLinks(s, v, c);
    var r := EndCallback(s, c);
    var v' := CallbackView(s, v, c);
    assert r.pendingTail == Last(v'.pending);
    assert forall i :: 0 <= i < |v'.pending| ==> v'.pending[i] in r.live && v'.pending[i] in r.finished;
  }

  /** The callback only ever moves copies of samples. */
  lemma CallbackStreams(s: AudioState, v: View, c: CopyId)
    requires Wf(s, v)
    requires c in s.live && c !in s.finished
    ensures StreamsIdle(EndCallback(s, c), CallbackView(s, v, c))
  {
    var p := s.nodes[c].parent;
    assert v.active[p] != [];
  }

  /** After the corrected callback every handle's tail pointer is the last
      copy of its list. */
  lemma CallbackTails(s: AudioState, v: View, c: CopyId)
    requires Wf(s, v)
    requires c in s.live && c !in s.finished
    ensures var r := EndCallback(s, c);
            var v' := CallbackView(s, v, c);
            |v'.active| == |r.pool|
            && forall g :: 0 <= g < |r.pool| ==> r.pool[g].copiesTail == Last(v'.active[g])
  {
    var r := EndCallback(s, c);
    var v' := CallbackView(s, v, c);
    var p := s.nodes[c].parent;
    var xs := v.active[p];
    var k := IndexOf(xs, c);
    RemoveAtFacts(xs, k);
    UnlinkKeepsOwnLinks(s.nodes, xs, k);
    if s.pool[p].copiesTail == Some(c) {
      assert k + 1 == |xs|;
    } else {
      assert k + 1 < |xs|;
    }
  }

  /** After the corrected callback each list holds copies in the state it
      calls for, with the right parent. */
  lemma CallbackMembers(s: AudioState, v: View, c: CopyId)
    requires ValidPointers(s) && |v.active| == |s.pool| && ActiveMembers(s, v)
    requires c in s.live && c !in s.finished && c in v.active[s.nodes[c].parent]
    requires Distinct(v.active[s.nodes[c].parent])
    ensures ActiveMembers(EndCallback(s, c), CallbackView(s, v, c))
  {
    var r := EndCallback(s, c);
    var v' := CallbackView(s, v, c);
    var p := s.nodes[c].parent;
    var xs := v.active[p];
    var k := IndexOf(xs, c);
    RemoveAtFacts(xs, k);
    forall g, i | 0 <= g < |v'.active| && 0 <= i < |v'.active[g]|
      ensures v'.active[g][i] in r.live && v'.active[g][i] !in r.finished
              && v'.active[g][i] < |r.nodes| && r.nodes[v'.active[g][i]].parent == g
    {
      if g == p {
        assert v'.active[g][i] in xs;
      }
    }
  }

  /** After the corrected callback every live copy is on the list its state
      calls for, and nothing was released. */
  lemma CallbackAccounting(s: AudioState, v: View, c: CopyId)
    requires ValidPointers(s) && |v.active| == |s.pool| && AccountingWf(s, v)
    requires c in s.live && c !in s.finished && c in v.active[s.nodes[c].parent]
    requires Distinct(v.active[s.nodes[c].parent])
    ensures var r := EndCallback(s, c);
            var v' := CallbackView(s, v, c);
            |v'.active| == |r.pool| && AccountingWf(r, v')
  {
    var r := EndCallback(s, c);
    var v' := CallbackView(s, v, c);
    var p := s.nodes[c].parent;
    var xs := v.active[p];
    var k := IndexOf(xs, c);
    RemoveAtFacts(xs, k);
    forall d | d in r.live && d !in r.finished ensures d in v'.active[r.nodes[d].parent] {
      assert r.nodes[d].parent == s.nodes[d].parent;
    }
    forall d | d in r.live && d in r.finished ensures d in v'.pending {
      if d == c { assert v'.pending[|v.pending|] == c; }
    }
  }

  /** The fuel of a walk covers any list of a well-formed state. */
  lemma WalkCoversList(s: AudioState, xs: seq<CopyId>)
    requires ValidPointers(s)
    requires Linked(s.nodes, xs)
    ensures Walk(s, Last(xs)) == xs
  {
    DistinctBound(xs, Indices(|s.nodes|));
    IndicesCount(|s.nodes|);
    WalkBackVisitsList(s.nodes, xs, |s.nodes|);
  }

  /** Releasing the copies of one list, none of them freed before, frees
      each exactly once and keeps the accounting of every other copy. */
  lemma ReleaseList(s: AudioState, xs: seq<CopyId>)
    requires Distinct(xs)
    requires forall i :: 0 <= i < |xs| ==> xs[i] in s.live
    requires forall c: CopyId :: s.released[c] == (if c < |s.nodes| && c !in s.live then 1 else 0)
    requires forall c :: c in s.live ==> c < |s.nodes|
    ensures var r := Release(s, xs);
            forall c: CopyId :: r.released[c] == (if c < |r.nodes| && c !in r.live then 1 else 0)
  {
    DistinctCount(xs);
  }

  /** Draining the pending list frees exactly the copies on it, each once,
      and leaves the invariant holding with an empty pending list. */
  lemma DrainPendingWf(s: AudioState, v: View)
    requires Wf(s, v)
    ensures var r := DrainPending(s);
            && Wf(r, v.(pending := []))
            && r.released == s.released + multiset(v.pending)
            && r.live == s.live - set c | c in v.pending
  {
    if s.pendingTail.Some? {
      WalkCoversList(s, v.pending);
      ReleaseList(s, v.pending);
      var r := DrainPending(s);
      var v' := v.(pending := []);
      assert ActiveListsWf(r, v');
      assert AccountingWf(r, v');
    }
  }

  /** Destroying a handle's copies frees exactly the copies on its list,
      each once, and leaves the invariant holding with that list empty. */
  lemma DestroyCopiesWf(s: AudioState, v: View, h: HandleId)
    requires Wf(s, v)
    requires h < |s.pool|
    ensures var r := DestroyCopies(s, h);
            && Wf(r, v.(active := v.active[h := []]))
            && r.released == s.released + multiset(v.active[h])
            && r.live == s.live - set c | c in v.active[h]
  {
    WalkCoversList(s, v.active[h]);
    DestroyLists(s, v, h);
    DestroyAccounting(s, v, h);
  }

  /** After the handle's copies are destroyed the lists keep their links
      and hold copies in the state they call for. */
  lemma DestroyLists(s: AudioState, v: View, h: HandleId)
    requires Wf(s, v)
    requires h < |s.pool|
    requires Walk(s, s.pool[h].copiesTail) == v.active[h]
    ensures var r := DestroyCopies(s, h);
            var v' := v.(active := v.active[h := []]);
            |v'.active| == |r.pool| && ActiveListsWf(r, v') && PendingWf(r, v')
  {
    var r := DestroyCopies(s, h);
    var v' := v.(active := v.active[h := []]);
    forall g, i | 0 <= g < |v'.active| && 0 <= i < |v'.active[g]| ensures v'.active[g][i] in r.live {
      assert s.nodes[v.active[g][i]].parent == g;
      assert v.active[g][i] !in v.active[h];
    }
    forall i | 0 <= i < |v.pending| ensures v.pending[i] in r.live {
      assert v.pending[i] !in v.active[h];
    }
  }

  /** After the handle's copies are destroyed every live copy is still on
      its list, and each destroyed copy was released once. */
  lemma DestroyAccounting(s: AudioState, v: View, h: HandleId)
    requires Wf(s, v)
    requires h < |s.pool|
    requires Walk(s, s.pool[h].copiesTail) == v.active[h]
    ensures var r := DestroyCopies(s, h);
            var v' := v.(active := v.active[h := []]);
            |v'.active| == |r.pool| && AccountingWf(r, v')
  {
    var xs := v.active[h];
    ReleaseList(s, xs);
    var r := DestroyCopies(s, h);
    var v' := v.(active := v.active[h := []]);
    forall d | d in r.live && d !in r.finished ensures d in v'.active[r.nodes[d].parent] {
      assert d !in xs;
    }
  }

  /** A second drain right after a first one does nothing. */
  lemma DrainPendingTwice(s: AudioState)
    requires ValidPointers(s)
    ensures DrainPending(DrainPending(s)) == DrainPending(s)
  {
  }

  /** The view after a stop or destroy of a sample: the handle's list is
      emptied. */
  ghost function ClearView(s: AudioState, v: View, audio: Option<HandleId>): View
    requires audio.Some? ==> audio.value < |s.pool|
    requires |v.active| == |s.pool|
  {
    if SanityCheck(s.pool, audio, false) then v.(active := v.active[audio.value := []]) else v
  }

  /** With no tail pointer a handle's list is empty: the conditional
      destruction in stop and destroy skips nothing. */
  lemma NoTailNoCopies(s: AudioState, v: View, h: HandleId)
    requires Wf(s, v) && h < |s.pool|
    requires s.pool[h].copiesTail.None?
    ensures v.active[h := []] == v.active
  {
    assert v.active[h] == [];
  }

  /** Stopping a sample frees exactly the copies on its list, each once,
      and keeps the list invariant. */
  lemma SampleStopWf(s: AudioState, v: View, audio: Option<HandleId>)
    requires Wf(s, v)
    requires audio.Some? ==> audio.value < |s.pool|
    ensures var r := SampleStop(s, audio);
            && Wf(r, ClearView(s, v, audio))
            && (SanityCheck(s.pool, audio, false) ==>
                  r.released == s.released + multiset(v.active[audio.value]))
  {
    if SanityCheck(s.pool, audio, false) {
      var h := audio.value;
      var v' := v.(active := v.active[h := []]);
      if s.pool[h].copiesTail.Some? {
        DestroyCopiesWf(s, v, h);
        var s1 := DestroyCopies(s, h);
        SoundChangeWf(s1, v', h, s1.pool[h].sound.(playing := false, frame := 0));
      } else {
        NoTailNoCopies(s, v, h);
        SoundChangeWf(s, v, h, s.pool[h].sound.(playing := false, frame := 0));
      }
    }
  }

  /** Destroying a sample frees exactly the copies on its list, each once,
      and keeps the list invariant. */
  lemma SampleDestroyWf(s: AudioState, v: View, audio: Option<HandleId>)
    requires Wf(s, v)
    requires audio.Some? ==> audio.value < |s.pool|
    ensures var r := SampleDestroy(s, audio);
            && Wf(r, ClearView(s, v, audio))
            && (SanityCheck(s.pool, audio, false) ==>
                  r.released == s.released + multiset(v.active[audio.value]))
  {
    if SanityCheck(s.pool, audio, false) {
      var h := audio.value;
      var v' := v.(active := v.active[h := []]);
      if s.pool[h].copiesTail.Some? {
        DestroyCopiesWf(s, v, h);
        var s1 := DestroyCopies(s, h);
        SoundChangeWf(s1, v', h, Uninit(s1.pool[h].sound));
      } else {
        NoTailNoCopies(s, v, h);
        SoundChangeWf(s, v, h, Uninit(s.pool[h].sound));
      }
    }
  }

  // ---------------------------------------------------------------------
  // The stale tail pointer
  // ---------------------------------------------------------------------

  /** Every handle's tail pointer designates a copy that is still playing. */
  ghost predicate TailsPlaying(s: AudioState)
  {
    forall h :: 0 <= h < |s.pool| && s.pool[h].copiesTail.Some? ==>
      s.pool[h].copiesTail.value in s.live && s.pool[h].copiesTail.value !in s.finished
  }

  /** In a well-formed state every tail pointer designates a playing copy. */
  lemma WfTailsPlaying(s: AudioState, v: View)
    requires Wf(s, v)
    ensures TailsPlaying(s)
  {
    forall h | 0 <= h < |s.pool| && s.pool[h].copiesTail.Some?
      ensures s.pool[h].copiesTail.value in s.live && s.pool[h].copiesTail.value !in s.finished
    {
      var xs := v.active[h];
      assert s.pool[h].copiesTail.value == xs[|xs| - 1];
    }
  }

  /** The two versions of the callback agree except when the finishing
      copy is its parent's tail and has a predecessor: then the code as
      written leaves the tail on the finished copy. */
  lemma CallbackAgreement(s: AudioState, v: View, c: CopyId)
    requires Wf(s, v)
    requires c in s.live && c !in s.finished
    ensures var p := s.nodes[c].parent;
            EndCallbackAsWritten(s, c) == EndCallback(s, c)
            <==> !(s.pool[p].copiesTail == Some(c) && s.nodes[c].prev.Some?)
  {
    var p := s.nodes[c].parent;
    var xs := v.active[p];
    var k := IndexOf(xs, c);
    UnlinkKeepsOwnLinks(s.nodes, xs, k);
    assert Linked(s.nodes, xs);
    if k > 0 { assert s.nodes[xs[k]].prev == Some(xs[k - 1]); }
    if k + 1 < |xs| { assert s.nodes[xs[k]].next == Some(xs[k + 1]); }
    assert s.nodes[c].prev.None? <==> k == 0;
    assert s.nodes[c].next.None? <==> k + 1 == |xs|;
    if s.pool[p].copiesTail == Some(c) && s.nodes[c].prev.Some? {
      assert EndCallbackAsWritten(s, c).pool[p].copiesTail == Some(c);
      assert EndCallback(s, c).pool[p].copiesTail == s.nodes[c].prev;
      assert s.nodes[c].prev == Some(xs[k - 1]);
    }
  }

  /** The code as written breaks the invariant: when the finishing copy is
      its parent's tail and has a predecessor, the tail pointer is left on
      a finished copy, which no well-formed state allows. */
  lemma StaleTail(s: AudioState, v: View, c: CopyId)
    requires Wf(s, v)
    requires c in s.live && c !in s.finished
    requires s.pool[s.nodes[c].parent].copiesTail == Some(c) && s.nodes[c].prev.Some?
    ensures !TailsPlaying(EndCallbackAsWritten(s, c))
  {
    var p := s.nodes[c].parent;
    var xs := v.active[p];
    UnlinkKeepsOwnLinks(s.nodes, xs, IndexOf(xs, c));
    assert EndCallbackAsWritten(s, c).pool[p].copiesTail == Some(c);
  }

  /** A sample playing with no copies yet. */
  const OneSample := AudioState(
    [Handle(Some(FileRef(0, 0)), false, Sound(true, true, 0, 100, false, 1.0, 0), None)],
    [], {}, {}, multiset{}, None)

  /** The sample handle of `OneSample` with the given tail pointer. */
  function SampleWithTail(tail: Option<CopyId>): Handle
  {
    Handle(Some(FileRef(0, 0)), false, Sound(true, true, 0, 100, false, 1.0, 0), tail)
  }

  /** Copies 0 and 1 playing, linked in that order. */
  const TwoCopies := AudioState(
    [SampleWithTail(Some(1))], [Node(0, None, Some(1)), Node(0, Some(0), None)],
    {0, 1}, {}, multiset{}, None)

  /** Playing `OneSample` twice while it sounds makes two copies. */
  lemma PlayTwice()
    ensures SamplePlay(SamplePlay(OneSample, Some(0)), Some(0)) == TwoCopies
  {
    var s1 := SamplePlay(OneSample, Some(0));
    assert s1 == AudioState([SampleWithTail(Some(0))], [Node(0, None, None)], {0}, {}, multiset{}, None);
  }

  /** The state the end callback as written leaves when copy 1 finishes:
      the parent's tail still designates copy 1. */
  const StaleTwoCopies := AudioState(
    [SampleWithTail(Some(1))], [Node(0, None, None), Node(0, None, None)],
    {0, 1}, {1}, multiset{}, Some(1))

  lemma StaleTailStep()
    ensures EndCallbackAsWritten(TwoCopies, 1) == StaleTwoCopies
  {
  }

  /** The double free: play twice (copies 0 and 1), let copy 1 finish,
      drain the pending list (freeing copy 1), then stop the sample. The
      stop walks from the stale tail and frees copy 1 a second time, while
      copy 0 is left sounding and on no list at all. It is freed only later,
      once its own end callback has run and the next frame drains it. */
  lemma StaleTailDoubleFree()
    ensures var s1 := SamplePlay(OneSample, Some(0));
            var s2 := SamplePlay(s1, Some(0));
            var s3 := EndCallbackAsWritten(s2, 1);
            var s4 := DrainPending(s3);
            var s5 := SampleStop(s4, Some(0));
            && s5.released[1] == 2
            && 0 in s5.live && 0 !in s5.finished
            && s5.pool[0].copiesTail.None? && s5.pendingTail.None?
            && var s7 := DrainPending(EndCallbackAsWritten(s5, 0));
               s7.released[0] == 1 && s7.live == {}
  {
    PlayTwice();
    StaleTailStep();
    var s4 := DrainPending(StaleTwoCopies);
    assert Walk(StaleTwoCopies, Some(1)) == [1];
    assert s4 == StaleTwoCopies.(live := {0}, released := multiset{1}, pendingTail := None);
    assert Walk(s4, Some(1)) == [1];
  }

  /** The state the corrected end callback leaves when copy 1 finishes:
      the parent's tail moves back to copy 0. */
  const FinishedSecond := AudioState(
    [SampleWithTail(Some(0))], [Node(0, None, None), Node(0, None, None)],
    {0, 1}, {1}, multiset{}, Some(1))

  lemma CorrectedTailStep()
    ensures EndCallback(TwoCopies, 1) == FinishedSecond
  {
  }

  /** The same sequence of events with the corrected callback frees each
      copy exactly once and leaves nothing alive. */
  lemma CorrectedTailFreesOnce()
    ensures var s1 := SamplePlay(OneSample, Some(0));
            var s2 := SamplePlay(s1, Some(0));
            var s3 := EndCallback(s2, 1);
            var s4 := DrainPending(s3);
            var s5 := SampleStop(s4, Some(0));
            && s5.released == multiset{0, 1}
            && s5.live == {} && s5.pool[0].copiesTail.None?
  {
    PlayTwice();
    CorrectedTailStep();
    var s4 := DrainPending(FinishedSecond);
    assert Walk(FinishedSecond, Some(1)) == [1];
    assert s4 == FinishedSecond.(live := {0}, released := multiset{1}, pendingTail := None);
    assert Walk(s4, Some(0)) == [0];
  }
}

=== FILE: lifecycle.dfy ===
/** The subsystem as a whole: loads, the sample and stream operations, the
    engine's end callbacks and the per-frame drain as one transition system
    started by `smlua_audio_custom_init`, and `audio_custom_shutdown`.

    The main result is that, with the corrected end callback and load, the
    list invariant holds in every reachable state, so no copy is ever
    released twice. */
module Lifecycle {
  import opened Base
  import opened ModAudio
  import opened Links
  import opened Registry
  import opened SampleCopies
  import opened Streams

  // ---------------------------------------------------------------------
  // Loading
  // ---------------------------------------------------------------------

  /** The view after a load: a new slot starts with an empty list. */
  ghost function LoadView(s: AudioState, v: View, r: AudioState): View
  {
    if |r.pool| > |s.pool| then v.(active := v.active + [[]]) else v
  }

  /** A new slot has no copies, so appending it keeps the list invariant. */
  lemma AppendHandleWf(s: AudioState, v: View, h: Handle)
    requires Wf(s, v)
    requires h.copiesTail.None?
    ensures Wf(s.(pool := s.pool + [h]), v.(active := v.active + [[]]))
  {
    var r := s.(pool := s.pool + [h]);
    var v' := v.(active := v.active + [[]]);
    AppendHandlePointers(s, h);
    AppendHandleLists(s, v, h);
    AppendHandleAccounting(s, v, h);
    assert PendingWf(r, v');
  }

  lemma AppendHandlePointers(s: AudioState, h: Handle)
    requires ValidPointers(s)
    requires h.copiesTail.None?
    ensures ValidPointers(s.(pool := s.pool + [h]))
  {
    var r := s.(pool := s.pool + [h]);
    assert forall g :: 0 <= g < |s.pool| ==> r.pool[g] == s.pool[g];
  }

  lemma AppendHandleLists(s: AudioState, v: View, h: Handle)
    requires |v.active| == |s.pool| && ActiveListsWf(s, v)
    requires h.copiesTail.None?
    ensures ActiveListsWf(s.(pool := s.pool + [h]), v.(active := v.active + [[]]))
  {
    var r := s.(pool := s.pool + [h]);
    var v' := v.(active := v.active + [[]]);
    assert forall g :: 0 <= g < |s.pool| ==> r.pool[g] == s.pool[g] && v'.active[g] == v.active[g];
    assert v'.active[|s.pool|] == [];
  }

  lemma AppendHandleAccounting(s: AudioState, v: View, h: Handle)
    requires ValidPointers(s) && |v.active| == |s.pool| && AccountingWf(s, v)
    requires ValidPointers(s.(pool := s.pool + [h]))
    ensures AccountingWf(s.(pool := s.pool + [h]), v.(active := v.active + [[]]))
  {
    var r := s.(pool := s.pool + [h]);
    var v' := v.(active := v.active + [[]]);
    forall d | d in r.live && d !in r.finished ensures d in v'.active[r.nodes[d].parent] {
      assert v'.active[s.nodes[d].parent] == v.active[s.nodes[d].parent];
    }
  }

  /** A state grown by one slot with no copies keeps the list invariant. */
  lemma GrowWf(s: AudioState, v: View, r: AudioState)
    requires Wf(s, v)
    requires r == s || (r == s.(pool := r.pool) && |r.pool| == |s.pool| + 1
                        && r.pool[..|s.pool|] == s.pool && r.pool[|s.pool|].copiesTail.None?)
    ensures Wf(r, LoadView(s, v, r))
  {
    if r != s {
      assert r == s.(pool := s.pool + [r.pool[|s.pool|]]);
      AppendHandleWf(s, v, r.pool[|s.pool|]);
    }
  }

  /** The load keeps the list invariant. */
  lemma LoadWf(s: AudioState, v: View, mod: Mod, filename: string, isStream: bool, env: Env)
    requires Wf(s, v)
    ensures Wf(Load(s, mod, filename, isStream, env).0,
               LoadView(s, v, Load(s, mod, filename, isStream, env).0))
  {
    GrowWf(s, v, Load(s, mod, filename, isStream, env).0);
  }

  /** So does the load as written: a half-registered slot has no copies. */
  lemma LoadAsWrittenWf(s: AudioState, v: View, mod: Mod, filename: string, isStream: bool, env: Env)
    requires Wf(s, v)
    ensures Wf(LoadAsWritten(s, mod, filename, isStream, env).0,
               LoadView(s, v, LoadAsWritten(s, mod, filename, isStream, env).0))
  {
    GrowWf(s, v, LoadAsWritten(s, mod, filename, isStream, env).0);
  }

  // ---------------------------------------------------------------------
  // Streams
  // ---------------------------------------------------------------------

  /** Every stream operation changes one stream's sound and nothing else,
      so it keeps the list invariant with the same lists. */
  lemma StreamOpsWf(s: AudioState, v: View, audio: Option<HandleId>, restart: bool,
                    pos: real, looping: bool, freq: real)
    requires Wf(s, v)
    requires audio.Some? ==> audio.value < |s.pool|
    requires pos >= 0.0
    ensures Wf(StreamPlay(s, audio, restart), v) && Wf(StreamPause(s, audio), v)
    ensures Wf(StreamStop(s, audio), v) && Wf(StreamSetPosition(s, audio, pos), v)
    ensures Wf(StreamSetLooping(s, audio, looping), v)
    ensures Wf(StreamSetFrequency(s, audio, freq), v)
    ensures Wf(StreamDestroy(s, audio), v)
  {
    if SanityCheck(s.pool, audio, true) {
      var h := audio.value;
      SoundChangeWf(s, v, h, StreamPlay(s, audio, restart).pool[h].sound);
      SoundChangeWf(s, v, h, StreamPause(s, audio).pool[h].sound);
      SoundChangeWf(s, v, h, StreamStop(s, audio).pool[h].sound);
      SoundChangeWf(s, v, h, StreamSetPosition(s, audio, pos).pool[h].sound);
      SoundChangeWf(s, v, h, StreamSetLooping(s, audio, looping).pool[h].sound);
      SoundChangeWf(s, v, h, StreamSetFrequency(s, audio, freq).pool[h].sound);
      SoundChangeWf(s, v, h, StreamDestroy(s, audio).pool[h].sound);
    }
  }

  // ---------------------------------------------------------------------
  // Shutdown
  // ---------------------------------------------------------------------

  /** One iteration of the loop of `audio_custom_shutdown`: the handle is
      torn down by the destroy operation of its kind. */
  function DestroyHandle(s: AudioState, h: HandleId): (r: AudioState)
    requires ValidPointers(s)
    requires h < |s.pool|
    ensures ValidPointers(r) && |r.pool| == |s.pool|
    ensures r.pool[h].sound == Uninit(s.pool[h].sound)
    ensures !s.pool[h].isStream ==> r.pool[h].copiesTail.None?
    ensures s.pool[h].isStream ==> r.pool[h].copiesTail == s.pool[h].copiesTail
    ensures r.pool[h].file == s.pool[h].file && r.pool[h].isStream == s.pool[h].isStream
    ensures forall g {:trigger r.pool[g]} :: 0 <= g < |s.pool| && g != h ==> r.pool[g] == s.pool[g]
    ensures r.nodes == s.nodes && r.pendingTail == s.pendingTail && r.finished == s.finished
  {
    if s.pool[h].isStream then StreamDestroy(s, Some(h)) else SampleDestroy(s, Some(h))
  }

  /** `audio_custom_shutdown` as written, once the slots from `i` up have
      been torn down: the pool is walked from its tail, so the last slot goes
      first, and every slot is destroyed whatever state its sound is in,
      including a sample a mod has already destroyed (the pool keeps
      destroyed slots). */
  function ShutdownFromAsWritten(s: AudioState, i: nat): (r: AudioState)
    requires ValidPointers(s)
    requires i <= |s.pool|
    ensures ValidPointers(r) && |r.pool| == |s.pool|
    ensures forall h :: i <= h < |s.pool| ==>
              && !r.pool[h].sound.ready && !r.pool[h].sound.playing
              && r.pool[h].sound.uninits == s.pool[h].sound.uninits + 1
              && (!s.pool[h].isStream ==> r.pool[h].copiesTail.None?)
    ensures forall h {:trigger r.pool[h]} :: 0 <= h < i ==> r.pool[h] == s.pool[h]
    ensures r.nodes == s.nodes && r.pendingTail == s.pendingTail && r.finished == s.finished
    decreases |s.pool| - i
  {
    if i == |s.pool| then s
    else DestroyHandle(ShutdownFromAsWritten(s, i + 1), i)
  }

  function ShutdownAsWritten(s: AudioState): (r: AudioState)
    requires ValidPointers(s)
    ensures ValidPointers(r) && |r.pool| == |s.pool|
    ensures forall h :: 0 <= h < |s.pool| ==>
              && !r.pool[h].sound.ready && !r.pool[h].sound.playing
              && r.pool[h].sound.uninits == s.pool[h].sound.uninits + 1
              && (!s.pool[h].isStream ==> r.pool[h].copiesTail.None?)
    ensures r.nodes == s.nodes && r.pendingTail == s.pendingTail && r.finished == s.finished
  {
    ShutdownFromAsWritten(s, 0)
  }

  /** One iteration of the corrected shutdown: a slot whose sound is not
      initialised (destroyed by a mod already, or never opened) has its
      copies freed but its sound left alone. */
  function DestroyHandleIfReady(s: AudioState, h: HandleId): (r: AudioState)
    requires ValidPointers(s)
    requires h < |s.pool|
    ensures ValidPointers(r) && |r.pool| == |s.pool|
    ensures !r.pool[h].sound.ready
    ensures r.pool[h].sound.uninits == s.pool[h].sound.uninits + (if s.pool[h].sound.ready then 1 else 0)
    ensures !s.pool[h].isStream ==> r.pool[h].copiesTail.None?
    ensures forall g {:trigger r.pool[g]} :: 0 <= g < |s.pool| && g != h ==> r.pool[g] == s.pool[g]
    ensures r.nodes == s.nodes && r.pendingTail == s.pendingTail && r.finished == s.finished
  {
    if s.pool[h].sound.ready then DestroyHandle(s, h)
    else if !s.pool[h].isStream && s.pool[h].copiesTail.Some? then DestroyCopies(s, h)
    else s
  }

  /** The corrected shutdown, once the slots from `i` up have been torn
      down: every sound ends uninitialised, and `ma_sound_uninit` is called
      on exactly the sounds that were initialised. */
  function ShutdownFrom(s: AudioState, i: nat): (r: AudioState)
    requires ValidPointers(s)
    requires i <= |s.pool|
    ensures ValidPointers(r) && |r.pool| == |s.pool|
    ensures forall h :: i <= h < |s.pool| ==>
              && !r.pool[h].sound.ready
              && r.pool[h].sound.uninits
                 == s.pool[h].sound.uninits + (if s.pool[h].sound.ready then 1 else 0)
              && (!s.pool[h].isStream ==> r.pool[h].copiesTail.None?)
    ensures forall h {:trigger r.pool[h]} :: 0 <= h < i ==> r.pool[h] == s.pool[h]
    ensures r.nodes == s.nodes && r.pendingTail == s.pendingTail && r.finished == s.finished
    decreases |s.pool| - i
  {
    if i == |s.pool| then s
    else DestroyHandleIfReady(ShutdownFrom(s, i + 1), i)
  }

  function Shutdown(s: AudioState): (r: AudioState)
    requires ValidPointers(s)
    ensures ValidPointers(r) && |r.pool| == |s.pool|
    ensures forall h :: 0 <= h < |s.pool| ==>
              && !r.pool[h].sound.ready
              && r.pool[h].sound.uninits
                 == s.pool[h].sound.uninits + (if s.pool[h].sound.ready then 1 else 0)
              && (!s.pool[h].isStream ==> r.pool[h].copiesTail.None?)
    ensures r.nodes == s.nodes && r.pendingTail == s.pendingTail && r.finished == s.finished
  {
    ShutdownFrom(s, 0)
  }

  /** The view once the slots from `i` up have been torn down: their lists
      are empty. */
  ghost function ClearFrom(v: View, i: nat): (r: View)
    ensures |r.active| == |v.active| && r.pending == v.pending
    ensures forall h :: 0 <= h < |v.active| ==> r.active[h] == (if h < i then v.active[h] else [])
  {
    v.(active := seq(|v.active|, h requires 0 <= h < |v.active| => if h < i then v.active[h] else []))
  }

  /** Tearing down one stream keeps the list invariant: a stream has no
      copies. */
  lemma DestroyStreamWf(s: AudioState, v: View, h: HandleId)
    requires Wf(s, v) && h < |s.pool| && s.pool[h].isStream
    ensures Wf(DestroyHandle(s, h), v.(active := v.active[h := []]))
  {
    assert v.active[h] == [];
    assert v.(active := v.active[h := []]) == v;
    SoundChangeWf(s, v, h, Uninit(s.pool[h].sound));
  }

  /** Tearing down one sample frees its copies and keeps the list
      invariant with its list emptied. */
  lemma DestroySampleWf(s: AudioState, v: View, h: HandleId)
    requires Wf(s, v) && h < |s.pool| && !s.pool[h].isStream
    ensures Wf(DestroyHandle(s, h), v.(active := v.active[h := []]))
  {
    SampleDestroyWf(s, v, Some(h));
  }

  /** A slot the corrected shutdown leaves alone has no copies. */
  lemma SkipHandleWf(s: AudioState, v: View, h: HandleId)
    requires Wf(s, v) && h < |s.pool|
    requires s.pool[h].isStream || s.pool[h].copiesTail.None?
    ensures Wf(s, v.(active := v.active[h := []]))
  {
    assert v.active[h] == [];
    assert v.(active := v.active[h := []]) == v;
  }

  /** Tearing down one slot empties its list and keeps the list invariant. */
  lemma DestroyHandleWf(s: AudioState, v: View, h: HandleId)
    requires Wf(s, v) && h < |s.pool|
    ensures Wf(DestroyHandle(s, h), v.(active := v.active[h := []]))
  {
    if s.pool[h].isStream { DestroyStreamWf(s, v, h); } else { DestroySampleWf(s, v, h); }
  }

  /** The corrected step keeps the list invariant too. */
  lemma DestroyHandleIfReadyWf(s: AudioState, v: View, h: HandleId)
    requires Wf(s, v) && h < |s.pool|
    ensures Wf(DestroyHandleIfReady(s, h), v.(active := v.active[h := []]))
  {
    if s.pool[h].sound.ready {
      DestroyHandleWf(s, v, h);
    } else if !s.pool[h].isStream && s.pool[h].copiesTail.Some? {
      DestroyCopiesWf(s, v, h);
    } else {
      SkipHandleWf(s, v, h);
    }
  }

  lemma ClearFromStep(v: View, i: nat)
    requires i < |v.active|
    ensures ClearFrom(v, i + 1).(active := ClearFrom(v, i + 1).active[i := []]) == ClearFrom(v, i)
  {
  }

  lemma WfSame(s: AudioState, v: View, s': AudioState, v': View)
    requires Wf(s, v) && s == s' && v == v'
    ensures Wf(s', v')
  {
  }

  /** One turn of the loop keeps the list invariant, clearing one more
      list. */
  lemma ShutdownFromAsWrittenWfTurn(s: AudioState, v: View, i: nat)
    requires ValidPointers(s) && i < |s.pool| && |v.active| == |s.pool|
    ensures Wf(ShutdownFromAsWritten(s, i + 1), ClearFrom(v, i + 1))
            ==> Wf(ShutdownFromAsWritten(s, i), ClearFrom(v, i))
  {
    if Wf(ShutdownFromAsWritten(s, i + 1), ClearFrom(v, i + 1)) {
      DestroyHandleWf(ShutdownFromAsWritten(s, i + 1), ClearFrom(v, i + 1), i);
      ClearFromStep(v, i);
    }
  }

  /** The turns still to come keep the list invariant. */
  lemma {:induction false} ShutdownFromAsWrittenWfRest(s: AudioState, v: View, i: nat)
    requires ValidPointers(s) && i <= |s.pool| && |v.active| == |s.pool|
    requires Wf(ShutdownFromAsWritten(s, i), ClearFrom(v, i))
    ensures Wf(ShutdownFromAsWritten(s, 0), ClearFrom(v, 0))
  {
    if i > 0 {
      ShutdownFromAsWrittenWfTurn(s, v, i - 1);
      ShutdownFromAsWrittenWfRest(s, v, i - 1);
    }
  }

  /** The shutdown as written empties every list and keeps the list
      invariant. */
  lemma ShutdownAsWrittenWf(s: AudioState, v: View)
    requires Wf(s, v)
    ensures Wf(ShutdownAsWritten(s), ClearFrom(v, 0))
  {
    assert ShutdownFromAsWritten(s, |s.pool|) == s;
    assert ClearFrom(v, |s.pool|) == v;
    WfSame(s, v, ShutdownFromAsWritten(s, |s.pool|), ClearFrom(v, |s.pool|));
    ShutdownFromAsWrittenWfRest(s, v, |s.pool|);
  }

  /** One turn of the corrected loop keeps the list invariant, clearing
      one more list. */
  lemma ShutdownFromWfTurn(s: AudioState, v: View, i: nat)
    requires ValidPointers(s) && i < |s.pool| && |v.active| == |s.pool|
    ensures Wf(ShutdownFrom(s, i + 1), ClearFrom(v, i + 1)) ==> Wf(ShutdownFrom(s, i), ClearFrom(v, i))
  {
    if Wf(ShutdownFrom(s, i + 1), ClearFrom(v, i + 1)) {
      DestroyHandleIfReadyWf(ShutdownFrom(s, i + 1), ClearFrom(v, i + 1), i);
      ClearFromStep(v, i);
    }
  }

  lemma {:induction false} ShutdownFromWfRest(s: AudioState, v: View, i: nat)
    requires ValidPointers(s) && i <= |s.pool| && |v.active| == |s.pool|
    requires Wf(ShutdownFrom(s, i), ClearFrom(v, i))
    ensures Wf(ShutdownFrom(s, 0), ClearFrom(v, 0))
  {
    if i > 0 {
      ShutdownFromWfTurn(s, v, i - 1);
      ShutdownFromWfRest(s, v, i - 1);
    }
  }

  /** Shutdown keeps the list invariant with every handle's list empty. */
  lemma ShutdownWf(s: AudioState, v: View)
    requires Wf(s, v)
    ensures Wf(Shutdown(s), ClearFrom(v, 0))
    ensures forall h :: 0 <= h < |s.pool| ==> ClearFrom(v, 0).active[h] == []
  {
    assert ShutdownFrom(s, |s.pool|) == s;
    assert ClearFrom(v, |s.pool|) == v;
    WfSame(s, v, ShutdownFrom(s, |s.pool|), ClearFrom(v, |s.pool|));
    ShutdownFromWfRest(s, v, |s.pool|);
  }

  /** In a well-formed state whose lists are all empty, every allocated
      copy has finished and waits on the pending list. */
  lemma NoActiveOnlyPending(s: AudioState, v: View)
    requires Wf(s, v)
    requires forall h :: 0 <= h < |v.active| ==> v.active[h] == []
    ensures forall c :: c in s.live ==> c in s.finished && c in v.pending
    ensures forall c: CopyId :: s.released[c] <= 1
  {
    forall c | c in s.live ensures c in s.finished {
      if c !in s.finished {
        assert false;
      }
    }
  }

  /** After shutdown no copy is left on a handle's list: every copy still
      allocated has finished and waits on the pending list, and no copy was
      ever freed twice. Neither shutdown nor deinit drains that list, so
      these copies outlive the engine; only a later drain, if frames run
      again, uninitialises and frees them. */
  lemma ShutdownLeavesOnlyPending(s: AudioState, v: View)
    requires Wf(s, v)
    ensures var r := Shutdown(s);
            && (forall h :: 0 <= h < |r.pool| && !r.pool[h].isStream ==> r.pool[h].copiesTail.None?)
            && (forall c :: c in r.live ==> c in r.finished && c in v.pending)
            && (forall c: CopyId :: r.released[c] <= 1)
  {
    ShutdownWf(s, v);
    NoActiveOnlyPending(Shutdown(s), ClearFrom(v, 0));
  }

  // ---------------------------------------------------------------------
  // The double uninitialisation at shutdown
  // ---------------------------------------------------------------------

  /** Every sound has been through `ma_sound_uninit` at most once, and not
      at all while it is initialised. */
  ghost predicate UninitAtMostOnce(s: AudioState)
  {
    forall h :: 0 <= h < |s.pool| ==>
      s.pool[h].sound.uninits <= (if s.pool[h].sound.ready then 0 else 1)
  }

  /** As written, shutdown uninitialises again a sample a mod has already
      destroyed: its sound goes through `ma_sound_uninit` twice. */
  lemma DestroyedSampleUninitTwice(s: AudioState, h: HandleId)
    requires ValidPointers(s) && h < |s.pool| && !s.pool[h].isStream
    ensures ShutdownAsWritten(SampleDestroy(s, Some(h))).pool[h].sound.uninits
            == s.pool[h].sound.uninits + 2
  {
  }

  /** The smallest instance: one loaded sample, destroyed by its mod, then
      the subsystem shut down. */
  lemma ShutdownDoubleUninitExample()
    ensures ShutdownAsWritten(SampleDestroy(OneSample, Some(0))).pool[0].sound.uninits == 2
    ensures Shutdown(SampleDestroy(OneSample, Some(0))).pool[0].sound.uninits == 1
  {
    DestroyedSampleUninitTwice(OneSample, 0);
    DestroyedSampleUninitOnce(OneSample, 0);
  }

  /** The corrected shutdown uninitialises every initialised sound exactly
      once and leaves alone the ones already uninitialised, so no sound is
      uninitialised twice. */
  lemma ShutdownUninitsOnce(s: AudioState)
    requires ValidPointers(s) && UninitAtMostOnce(s)
    ensures UninitAtMostOnce(Shutdown(s))
    ensures forall h :: 0 <= h < |s.pool| ==>
              !Shutdown(s).pool[h].sound.ready
              && (s.pool[h].sound.ready ==> Shutdown(s).pool[h].sound.uninits == 1)
  {
  }

  /** Destroying a sample then shutting down, with the corrected shutdown:
      the sound is uninitialised once in all. */
  lemma DestroyedSampleUninitOnce(s: AudioState, h: HandleId)
    requires ValidPointers(s) && h < |s.pool| && !s.pool[h].isStream
    ensures Shutdown(SampleDestroy(s, Some(h))).pool[h].sound.uninits
            == s.pool[h].sound.uninits + 1
  {
  }

  // ---------------------------------------------------------------------
  // The whole subsystem
  // ---------------------------------------------------------------------

  /** Everything that can happen to the subsystem between init and
      shutdown: a call from a mod, the engine reaching the end of a
      handle's own sound, the engine reporting that a copy finished, or the
      start of a frame (which drains the pending list). */
  datatype Event =
    | LoadEv(mod: Mod, filename: string, isStream: bool, env: Env)
    | SamplePlayEv(audio: Option<HandleId>)
    | SampleStopEv(audio: Option<HandleId>)
    | SampleDestroyEv(audio: Option<HandleId>)
    | StreamPlayEv(audio: Option<HandleId>, restart: bool)
    | StreamPauseEv(audio: Option<HandleId>)
    | StreamStopEv(audio: Option<HandleId>)
    | StreamSetPositionEv(audio: Option<HandleId>, pos: real)
    | StreamSetLoopingEv(audio: Option<HandleId>, looping: bool)
    | StreamSetFrequencyEv(audio: Option<HandleId>, freq: real)
    | StreamDestroyEv(audio: Option<HandleId>)
    | SoundEndsEv(handle: HandleId)
    | FinishEv(copy: CopyId)
    | FrameEv

  /** The handle an event names, if it names one. */
  function Target(e: Event): (r: Option<HandleId>)
  {
    match e
    case SamplePlayEv(a) => a
    case SampleStopEv(a) => a
    case SampleDestroyEv(a) => a
    case StreamPlayEv(a, _) => a
    case StreamPauseEv(a) => a
    case StreamStopEv(a) => a
    case StreamSetPositionEv(a, _) => a
    case StreamSetLoopingEv(a, _) => a
    case StreamSetFrequencyEv(a, _) => a
    case StreamDestroyEv(a) => a
    case SoundEndsEv(h) => Some(h)
    case _ => None
  }

  /** Whether an event can happen in `s`. A mod can only name a handle it
      was given, so an event naming a slot outside the pool is impossible;
      a negative seek position is outside the model; the engine reports
      each copy finished at most once, while the copy is alive. */
  predicate Possible(s: AudioState, e: Event)
  {
    && (Target(e).Some? ==> Target(e).value < |s.pool|)
    && (e.StreamSetPositionEv? ==> e.pos >= 0.0)
    && (e.FinishEv? ==> e.copy in s.live && e.copy !in s.finished)
  }

  /** One step of the subsystem, with the corrected load and end callback.
      An impossible event changes nothing. */
  function Next(s: AudioState, e: Event): (r: AudioState)
    requires ValidPointers(s)
    ensures ValidPointers(r)
    ensures !Possible(s, e) ==> r == s
  {
    if !Possible(s, e) then s
    else
      match e
      case LoadEv(mod, filename, isStream, env) => Load(s, mod, filename, isStream, env).0
      case SamplePlayEv(a) => SamplePlay(s, a)
      case SampleStopEv(a) => SampleStop(s, a)
      case SampleDestroyEv(a) => SampleDestroy(s, a)
      case StreamPlayEv(a, restart) => StreamPlay(s, a, restart)
      case StreamPauseEv(a) => StreamPause(s, a)
      case StreamStopEv(a) => StreamStop(s, a)
      case StreamSetPositionEv(a, pos) => StreamSetPosition(s, a, pos)
      case StreamSetLoopingEv(a, looping) => StreamSetLooping(s, a, looping)
      case StreamSetFrequencyEv(a, freq) => StreamSetFrequency(s, a, freq)
      case StreamDestroyEv(a) => StreamDestroy(s, a)
      case SoundEndsEv(h) => SoundEnds(s, h)
      case FinishEv(c) => EndCallback(s, c)
      case FrameEv => DrainPending(s)
  }

  /** The lists after one step. */
  ghost function NextView(s: AudioState, v: View, e: Event): View
    requires Wf(s, v)
  {
    if !Possible(s, e) then v
    else
      match e
      case LoadEv(mod, filename, isStream, env) =>
        LoadView(s, v, Load(s, mod, filename, isStream, env).0)
      case SamplePlayEv(a) => PlayView(s, v, a)
      case SampleStopEv(a) => ClearView(s, v, a)
      case SampleDestroyEv(a) => ClearView(s, v, a)
      case FinishEv(c) => CallbackView(s, v, c)
      case FrameEv => v.(pending := [])
      case _ => v
  }

  /** Every step keeps the list invariant. */
  lemma NextWf(s: AudioState, v: View, e: Event)
    requires Wf(s, v)
    ensures Wf(Next(s, e), NextView(s, v, e))
  {
    if !Possible(s, e) {
    } else if e.LoadEv? {
      NextLoadWf(s, v, e);
    } else if e.SamplePlayEv? || e.SampleStopEv? || e.SampleDestroyEv? {
      NextSampleWf(s, v, e);
    } else if e.FinishEv? || e.FrameEv? {
      NextEngineWf(s, v, e);
    } else {
      NextStreamWf(s, v, e);
    }
  }

  lemma NextLoadWf(s: AudioState, v: View, e: Event)
    requires Wf(s, v) && Possible(s, e) && e.LoadEv?
    ensures Wf(Next(s, e), NextView(s, v, e))
  {
    LoadWf(s, v, e.mod, e.filename, e.isStream, e.env);
  }

  lemma NextSampleWf(s: AudioState, v: View, e: Event)
    requires Wf(s, v) && Possible(s, e)
    requires e.SamplePlayEv? || e.SampleStopEv? || e.SampleDestroyEv?
    ensures Wf(Next(s, e), NextView(s, v, e))
  {
    match e
    case SamplePlayEv(a) => SamplePlayWf(s, v, a);
    case SampleStopEv(a) => SampleStopWf(s, v, a);
    case SampleDestroyEv(a) => SampleDestroyWf(s, v, a);
  }

  lemma NextEngineWf(s: AudioState, v: View, e: Event)
    requires Wf(s, v) && Possible(s, e)
    requires e.FinishEv? || e.FrameEv?
    ensures Wf(Next(s, e), NextView(s, v, e))
  {
    match e
    case FinishEv(c) => EndCallbackWf(s, v, c);
    case FrameEv => DrainPendingWf(s, v);
  }

  lemma NextStreamWf(s: AudioState, v: View, e: Event)
    requires Wf(s, v) && Possible(s, e)
    requires !e.LoadEv? && !e.SamplePlayEv? && !e.SampleStopEv? && !e.SampleDestroyEv?
    requires !e.FinishEv? && !e.FrameEv?
    ensures Wf(Next(s, e), NextView(s, v, e))
  {
    NextStreamSound(s, e);
    if Next(s, e) != s {
      SoundChangeWf(s, v, Target(e).value, Next(s, e).pool[Target(e).value].sound);
    }
  }

  /** A stream event, or a sound reaching its end, changes at most the
      sound of the handle it names. */
  lemma NextStreamSound(s: AudioState, e: Event)
    requires ValidPointers(s) && Possible(s, e)
    requires !e.LoadEv? && !e.SamplePlayEv? && !e.SampleStopEv? && !e.SampleDestroyEv?
    requires !e.FinishEv? && !e.FrameEv?
    ensures Next(s, e) == s
            || (Target(e).Some? && Target(e).value < |s.pool|
                && Next(s, e) == WithSound(s, Target(e).value, Next(s, e).pool[Target(e).value].sound))
  {
  }

  /** The state after a sequence of events. */
  function Run(s: AudioState, es: seq<Event>): (r: AudioState)
    requires ValidPointers(s)
    ensures ValidPointers(r)
    ensures |r.pool| >= |s.pool| && |r.nodes| >= |s.nodes|
    decreases |es|
  {
    if es == [] then s else Run(Next(s, es[0]), es[1..])
  }

  /** One event, then the rest. */
  lemma RunStep(s: AudioState, es: seq<Event>)
    requires ValidPointers(s) && es != []
    ensures Run(s, es) == Run(Next(s, es[0]), es[1..])
  {
  }

  /** The lists after a sequence of events. */
  ghost function RunView(s: AudioState, v: View, es: seq<Event>): View
    requires Wf(s, v)
    decreases |es|
  {
    if es == [] then v
    else
      NextWf(s, v, es[0]);
      RunView(Next(s, es[0]), NextView(s, v, es[0]), es[1..])
  }

  /** The list invariant holds after any sequence of events. */
  lemma {:induction false} RunWf(s: AudioState, v: View, es: seq<Event>)
    requires Wf(s, v)
    ensures Wf(Run(s, es), RunView(s, v, es))
    decreases |es|
  {
    if es == [] {
      assert Run(s, es) == s;
      WfSame(s, v, Run(s, es), RunView(s, v, es));
    } else {
      var s1 := Next(s, es[0]);
      var v1 := NextView(s, v, es[0]);
      NextWf(s, v, es[0]);
      RunWf(s1, v1, es[1..]);
      RunStep(s, es);
      WfSame(Run(s1, es[1..]), RunView(s1, v1, es[1..]), Run(s, es), RunView(s, v, es));
    }
  }

  /** In a well-formed state every copy has been released at most once,
      every copy no longer allocated was released, and every tail pointer
      designates a copy that is still playing. */
  lemma WfSafe(s: AudioState, v: View)
    requires Wf(s, v)
    ensures forall c: CopyId :: s.released[c] <= 1
    ensures forall c: CopyId :: c < |s.nodes| && c !in s.live ==> s.released[c] == 1
    ensures TailsPlaying(s)
  {
    WfTailsPlaying(s, v);
  }

  /** From `smlua_audio_custom_init`, whatever mods call, whenever sounds
      reach their end and the engine reports copies finished, no sample copy is ever released
      twice, every copy freed was released, and no tail pointer is left
      on a finished copy. */
  lemma NeverDoubleFree(es: seq<Event>)
    ensures forall c: CopyId :: Run(Init, es).released[c] <= 1
    ensures forall c: CopyId :: c < |Run(Init, es).nodes| && c !in Run(Init, es).live ==>
              Run(Init, es).released[c] == 1
    ensures TailsPlaying(Run(Init, es))
  {
    InitWf();
    RunWf(Init, View([], []), es);
    WfSafe(Run(Init, es), RunView(Init, View([], []), es));
  }

  /** Shutting down after any run leaves every remaining copy finished and
      waiting on the pending list, which deinit does not drain, and still
      nothing released twice. */
  lemma ShutdownAfterRun(es: seq<Event>)
    ensures var r := Shutdown(Run(Init, es));
            && (forall c :: c in r.live ==> c in r.finished)
            && (forall c: CopyId :: r.released[c] <= 1)
  {
    InitWf();
    RunWf(Init, View([], []), es);
    ShutdownLeavesOnlyPending(Run(Init, es), RunView(Init, View([], []), es));
  }

  // ---------------------------------------------------------------------
  // The subsystem as written
  // ---------------------------------------------------------------------

  /** One step with the load and the end callback as the C code has them;
      every other event is handled as in `Next`. */
  function NextAsWritten(s: AudioState, e: Event): (r: AudioState)
    requires ValidPointers(s)
    ensures ValidPointers(r)
    ensures !Possible(s, e) ==> r == s
    ensures !e.LoadEv? && !e.FinishEv? ==> r == Next(s, e)
  {
    if !Possible(s, e) then s
    else
      match e
      case LoadEv(mod, filename, isStream, env) => LoadAsWritten(s, mod, filename, isStream, env).0
      case FinishEv(c) => EndCallbackAsWritten(s, c)
      case _ => Next(s, e)
  }

  /** The state after a sequence of events, as written. */
  function RunAsWritten(s: AudioState, es: seq<Event>): (r: AudioState)
    requires ValidPointers(s)
    ensures ValidPointers(r)
    decreases |es|
  {
    if es == [] then s else RunAsWritten(NextAsWritten(s, es[0]), es[1..])
  }

  /** Slot `h` is the slot a search for `file` finds, and it is registered
      as a sample. */
  ghost predicate SampleSlotFor(pool: seq<Handle>, file: FileRef, h: HandleId)
  {
    h < |pool| && FindModAudio(pool, file) == Some(h) && !pool[h].isStream
  }

  /** Every slot keeps the file it records and its kind. */
  ghost predicate SameSlots(pool: seq<Handle>, pool': seq<Handle>)
  {
    && |pool'| == |pool|
    && forall g :: 0 <= g < |pool| ==> pool'[g].file == pool[g].file && pool'[g].isStream == pool[g].isStream
  }

  /** Only a load adds slots, and no step rewrites a slot's file or kind:
      every other event, in either version, keeps the slots. */
  lemma NextKeepsSlots(s: AudioState, e: Event)
    requires ValidPointers(s) && !e.LoadEv?
    ensures SameSlots(s.pool, Next(s, e).pool)
    ensures SameSlots(s.pool, NextAsWritten(s, e).pool)
  {
    if Possible(s, e) && e.FinishEv? {
      var p := s.nodes[e.copy].parent;
      var r, r' := EndCallback(s, e.copy), EndCallbackAsWritten(s, e.copy);
      assert r.pool[p].file == s.pool[p].file && r'.pool[p].file == s.pool[p].file;
    }
  }

  /** A step keeps the sample slot a search finds for `file`: a load only
      appends a slot for a file that has none yet. */
  lemma NextAsWrittenKeepsSample(s: AudioState, e: Event, file: FileRef, h: HandleId)
    requires ValidPointers(s) && SampleSlotFor(s.pool, file, h)
    ensures SampleSlotFor(NextAsWritten(s, e).pool, file, h)
  {
    var r := NextAsWritten(s, e);
    if !e.LoadEv? {
      NextKeepsSlots(s, e);
      FindKept(s.pool, r.pool, file);
    } else if r != s {
      var slot := r.pool[|s.pool|];
      assert r.pool == s.pool + [slot];
      FindAfterAppend(s.pool, slot, file);
    }
  }

  /** Whatever happens, as written, the sample slot found for `file` stays it. */
  lemma {:induction false} RunAsWrittenKeepsSample(s: AudioState, es: seq<Event>,
                                                   file: FileRef, h: HandleId)
    requires ValidPointers(s) && SampleSlotFor(s.pool, file, h)
    ensures SampleSlotFor(RunAsWritten(s, es).pool, file, h)
    decreases |es|
  {
    if es != [] {
      NextAsWrittenKeepsSample(s, es[0], file, h);
      RunAsWrittenKeepsSample(NextAsWritten(s, es[0]), es[1..], file, h);
    }
  }

  /** No step, in either version, gives two slots the same mod file. */
  lemma NextKeepsFilesUnique(s: AudioState, e: Event)
    requires ValidPointers(s) && UniqueFiles(s.pool)
    ensures UniqueFiles(Next(s, e).pool)
    ensures UniqueFiles(NextAsWritten(s, e).pool)
  {
    if Possible(s, e) && e.LoadEv? {
      LoadKeepsFilesUnique(s, e.mod, e.filename, e.isStream, e.env);
    } else if !e.LoadEv? {
      NextKeepsSlots(s, e);
    }
  }

  /** Every state reachable from `smlua_audio_custom_init`, with either
      version of the subsystem, has at most one slot per mod file. */
  lemma {:induction false} RunKeepsFilesUnique(s: AudioState, es: seq<Event>)
    requires ValidPointers(s) && UniqueFiles(s.pool)
    ensures UniqueFiles(Run(s, es).pool)
    ensures UniqueFiles(RunAsWritten(s, es).pool)
    decreases |es|
  {
    if es != [] {
      NextKeepsFilesUnique(s, es[0]);
      RunKeepsFilesUnique(Next(s, es[0]), es[1..]);
      RunKeepsFilesUnique(NextAsWritten(s, es[0]), es[1..]);
      RunStep(s, es);
    }
  }

  /** From init, whatever happens, the registry never holds two slots for
      one mod file, so `Registry.LoadDeduplicates` applies to every
      reachable state. */
  lemma ReachableFilesUnique(es: seq<Event>)
    ensures UniqueFiles(Run(Init, es).pool)
    ensures UniqueFiles(RunAsWritten(Init, es).pool)
  {
    RunKeepsFilesUnique(Init, es);
  }

  /** The half-registered slot is permanent: once the engine has rejected a
      fresh file loaded as a stream, after any sequence of later events the
      file still cannot be loaded as a stream, by either version of the
      load, and loading it as a sample still hands back the slot whose
      sound was never initialised. */
  lemma HalfRegisteredForever(s: AudioState, mod: Mod, filename: string, es: seq<Event>,
                              env: Env, env': Env)
    requires ValidPointers(s)
    requires LoadAsWritten(s, mod, filename, true, InitFails).1 == Failed(EngineInitFailed)
    requires LoadAsWritten(s, mod, filename, true, InitFails).0 != s
    ensures var s1 := LoadAsWritten(s, mod, filename, true, InitFails).0;
            var sn := RunAsWritten(s1, es);
            && LoadAsWritten(sn, mod, filename, true, env) == (sn, Failed(KindMismatch))
            && Load(sn, mod, filename, true, env) == (sn, Failed(KindMismatch))
            && LoadAsWritten(sn, mod, filename, false, env') == (sn, Loaded(|s.pool|))
  {
    var s1 := LoadAsWritten(s, mod, filename, true, InitFails).0;
    var step := Resolve(s.pool, mod, filename, true);
    assert step.Allocate?;
    var file := step.file;
    var h := |s.pool|;
    assert s1.pool == s.pool + [s1.pool[h]];
    assert SampleSlotFor(s1.pool, file, h);
    RunAsWrittenKeepsSample(s1, es, file, h);
    var sn := RunAsWritten(s1, es);
    assert Resolve(sn.pool, mod, filename, true) == Done(Failed(KindMismatch));
    assert Resolve(sn.pool, mod, filename, false) == Done(Loaded(h));
  }
}

=== FILE: links.dfy ===
/** Intrusive doubly linked lists of sample copies, as `prev`/`next` fields of
    `struct ModAudioSampleCopies` reached from a tail pointer.

    A list is described by the sequence of its elements, head first. `Linked`
    says that the stored links spell exactly that sequence; the pointer
    operations of the audio code are written here once (`LinkAtTail`,
    `Detach`, `WalkBack`) and their effect on the described sequence proved. */
module Links {
  import opened Base
  import opened ModAudio

  /** The `prev` links of `nodes` spell `xs` backwards from its last element:
      enough for a walk from the tail. */
  ghost predicate BackLinked(nodes: seq<Node>, xs: seq<CopyId>)
  {
    && (forall i :: 0 <= i < |xs| ==> xs[i] < |nodes|)
    && Distinct(xs)
    && (|xs| > 0 ==> nodes[xs[0]].prev.None?)
    && (forall i :: 0 < i < |xs| ==> nodes[xs[i]].prev == Some(xs[i - 1]))
  }

  /** The `prev` and `next` links of `nodes` spell exactly `xs`. */
  ghost predicate Linked(nodes: seq<Node>, xs: seq<CopyId>)
  {
    && BackLinked(nodes, xs)
    && (|xs| > 0 ==> nodes[xs[|xs| - 1]].next.None?)
    && (forall i :: 0 <= i < |xs| - 1 ==> nodes[xs[i]].next == Some(xs[i + 1]))
  }

  /** The nodes a `for (node = tail; node; node = node->prev)` loop visits,
      listed head first. `fuel` bounds the number of steps; the invariant of
      the audio state makes it large enough to reach the head. */
  function WalkBack(nodes: seq<Node>, p: Option<CopyId>, fuel: nat): (r: seq<CopyId>)
    requires PrevClosed(nodes)
    requires Points(nodes, p)
    ensures |r| <= fuel
    ensures forall i :: 0 <= i < |r| ==> r[i] < |nodes|
    ensures p.None? ==> r == []
    ensures fuel > 0 && p.Some? ==> |r| > 0 && r[|r| - 1] == p.value
    decreases fuel
  {
    if fuel == 0 || p.None? then []
    else WalkBack(nodes, nodes[p.value].prev, fuel - 1) + [p.value]
  }

  /** Appending `c` after `tail` as the audio code does it: `c->prev = tail;
      tail->next = c`. With no tail the links are left alone (the caller
      makes `c` the tail). */
  function LinkAtTail(nodes: seq<Node>, tail: Option<CopyId>, c: CopyId): (r: seq<Node>)
    requires c < |nodes|
    requires Points(nodes, tail)
    ensures SameCopies(nodes, r)
    ensures Closed(nodes) ==> Closed(r)
    ensures forall y :: 0 <= y < |nodes| && y != c && Some(y) != tail ==> r[y] == nodes[y]
    ensures tail.None? ==> r == nodes
    ensures tail.Some? && tail.value != c ==>
              r[c] == nodes[c].(prev := tail) && r[tail.value] == nodes[tail.value].(next := Some(c))
  {
    match tail
    case None => nodes
    case Some(t) =>
      var m := nodes[c := nodes[c].(prev := tail)];
      m[t := m[t].(next := Some(c))]
  }

  /** Lines 401-402 of the end callback: the neighbours of `c` are joined
      around it. Each step reads the links as they are at that point, as the
      C code does. */
  function Unlink(nodes: seq<Node>, c: CopyId): (r: seq<Node>)
    requires c < |nodes|
    requires Closed(nodes)
    ensures SameCopies(nodes, r) && Closed(r)
    ensures nodes[c].next.Some? ==> r[nodes[c].next.value].prev == nodes[c].prev
    ensures nodes[c].prev.Some? ==> r[nodes[c].prev.value].next == nodes[c].next
    ensures forall y :: 0 <= y < |nodes| && Some(y) != nodes[c].prev && Some(y) != nodes[c].next ==>
              r[y] == nodes[y]
  {
    var m1 := match nodes[c].next
      case Some(n) => nodes[n := nodes[n].(prev := nodes[c].prev)]
      case None => nodes;
    match m1[c].prev
    case Some(p) => m1[p := m1[p].(next := m1[c].next)]
    case None => m1
  }

  /** Lines 401-402 followed by lines 406-407: `c` is taken out of its list
      and its own links cleared. */
  function Detach(nodes: seq<Node>, c: CopyId): (r: seq<Node>)
    requires c < |nodes|
    requires Closed(nodes)
    ensures SameCopies(nodes, r) && Closed(r)
    ensures r[c].prev.None? && r[c].next.None?
  {
    var m := Unlink(nodes, c);
    m[c := m[c].(next := None, prev := None)]
  }

  /** In a well-formed list `c` is not its own neighbour, so unlinking it
      leaves its own links as they were. */
  lemma UnlinkKeepsOwnLinks(nodes: seq<Node>, xs: seq<CopyId>, k: nat)
    requires Closed(nodes)
    requires Linked(nodes, xs)
    requires k < |xs|
    ensures Unlink(nodes, xs[k])[xs[k]] == nodes[xs[k]]
  {
    if k > 0 { assert xs[k - 1] != xs[k]; }
    if k + 1 < |xs| { assert xs[k + 1] != xs[k]; }
  }

  /** The links of nodes outside `c` and its two neighbours are untouched
      by `Detach`. */
  lemma DetachFrame(nodes: seq<Node>, c: CopyId, y: CopyId)
    requires c < |nodes|
    requires Closed(nodes)
    requires y < |nodes| && y != c && Some(y) != nodes[c].prev && Some(y) != nodes[c].next
    ensures Detach(nodes, c)[y] == nodes[y]
  {
  }

  /** A list stays described by the same sequence when none of its nodes
      changes. */
  lemma LinkedFrame(nodes: seq<Node>, nodes': seq<Node>, xs: seq<CopyId>)
    requires Linked(nodes, xs)
    requires forall i :: 0 <= i < |xs| ==> xs[i] < |nodes'| && nodes'[xs[i]] == nodes[xs[i]]
    ensures Linked(nodes', xs)
  {
  }

  /** Lists none of whose nodes a relinking touched are still spelled by
      the new links. */
  lemma ListsFrame(nodes: seq<Node>, nodes': seq<Node>,
                   lists: seq<seq<CopyId>>, touched: set<CopyId>)
    requires forall g :: 0 <= g < |lists| ==> Linked(nodes, lists[g])
    requires forall g, i :: 0 <= g < |lists| && 0 <= i < |lists[g]| ==> lists[g][i] !in touched
    requires |nodes'| == |nodes|
    requires forall y :: 0 <= y < |nodes| && y !in touched ==> nodes'[y] == nodes[y]
    ensures forall g :: 0 <= g < |lists| ==> Linked(nodes', lists[g])
  {
    forall g | 0 <= g < |lists| ensures Linked(nodes', lists[g]) {
      LinkedFrame(nodes, nodes', lists[g]);
    }
  }

  /** The walk from the tail of a list visits exactly its elements, once
      each, when the fuel covers the list. */
  lemma {:induction false} WalkBackVisitsList(nodes: seq<Node>, xs: seq<CopyId>, fuel: nat)
    requires PrevClosed(nodes)
    requires BackLinked(nodes, xs)
    requires |xs| <= fuel
    ensures WalkBack(nodes, Last(xs), fuel) == xs
  {
    if |xs| > 0 {
      var front := xs[..|xs| - 1];
      assert BackLinked(nodes, front);
      assert nodes[xs[|xs| - 1]].prev == Last(front);
      WalkBackVisitsList(nodes, front, fuel - 1);
      assert xs == front + [xs[|xs| - 1]];
    }
  }

  /** Appending a node with no links of its own, which is not yet in the
      list, extends the described sequence by that node. */
  lemma LinkAtTailAppends(nodes: seq<Node>, xs: seq<CopyId>, c: CopyId)
    requires Linked(nodes, xs)
    requires c < |nodes| && c !in xs
    requires nodes[c].prev.None? && nodes[c].next.None?
    ensures Linked(LinkAtTail(nodes, Last(xs), c), xs + [c])
  {
    var r := LinkAtTail(nodes, Last(xs), c);
    var ys := xs + [c];
    if |xs| > 0 {
      var t := xs[|xs| - 1];
      assert r[c] == nodes[c].(prev := Some(t));
      assert r[t] == nodes[t].(next := Some(c));
      forall i | 0 <= i < |xs| - 1 ensures r[xs[i]] == nodes[xs[i]] {
        assert xs[i] != t;
      }
      forall i | 0 < i < |ys| ensures r[ys[i]].prev == Some(ys[i - 1]) {
        if i < |xs| { assert xs[i] != c; }
      }
      forall i | 0 <= i < |ys| - 1 ensures r[ys[i]].next == Some(ys[i + 1]) {
      }
      if |xs| > 1 { assert r[ys[0]] == nodes[xs[0]]; }
    }
  }

  /** The element at position `k` removed. */
  function RemoveAt(xs: seq<CopyId>, k: nat): (r: seq<CopyId>)
    requires k < |xs|
    ensures |r| == |xs| - 1
    ensures forall i :: 0 <= i < |r| ==> r[i] == (if i < k then xs[i] else xs[i + 1])
  {
    xs[..k] + xs[k + 1..]
  }

  /** Removing an element keeps a sequence free of repetitions. */
  lemma RemoveAtDistinct(xs: seq<CopyId>, k: nat)
    requires Distinct(xs) && k < |xs|
    ensures Distinct(RemoveAt(xs, k))
  {
    var ys := RemoveAt(xs, k);
    forall i, j | 0 <= i < j < |ys| ensures ys[i] != ys[j] {
      var i' := if i < k then i else i + 1;
      var j' := if j < k then j else j + 1;
      assert ys[i] == xs[i'] && ys[j] == xs[j'];
    }
  }

  /** The list without position `k` ends where the list did, unless `k`
      was its last position; it holds every other element and never the
      removed one. */
  lemma RemoveAtFacts(xs: seq<CopyId>, k: nat)
    requires Distinct(xs) && k < |xs|
    ensures Last(RemoveAt(xs, k)) ==
              if k + 1 < |xs| then Last(xs) else if k > 0 then Some(xs[k - 1]) else None
    ensures forall i :: 0 <= i < |xs| - 1 ==> RemoveAt(xs, k)[i] in xs && RemoveAt(xs, k)[i] != xs[k]
    ensures forall d :: d in xs && d != xs[k] ==> d in RemoveAt(xs, k)
  {
    var ys := RemoveAt(xs, k);
    forall i | 0 <= i < |ys| ensures ys[i] in xs && ys[i] != xs[k] {
      if i < k { assert ys[i] == xs[i]; } else { assert ys[i] == xs[i + 1]; }
    }
    forall d | d in xs && d != xs[k] ensures d in ys {
      var j :| 0 <= j < |xs| && xs[j] == d;
      if j < k { assert ys[j] == d; } else { assert ys[j - 1] == d; }
    }
  }

  /** What `Detach` does to every node: `c` loses its links, its
      predecessor takes over its `next`, its successor its `prev`, and no
      other node changes. */
  lemma DetachEffect(nodes: seq<Node>, c: CopyId)
    requires c < |nodes| && Closed(nodes)
    requires nodes[c].prev != Some(c) && nodes[c].next != Some(c)
    requires nodes[c].prev.Some? ==> nodes[c].prev != nodes[c].next
    ensures var r := Detach(nodes, c);
            var n := nodes[c];
            forall y :: 0 <= y < |nodes| ==>
              r[y] == (if y == c then n.(prev := None, next := None)
                       else if Some(y) == n.prev then nodes[y].(next := n.next)
                       else if Some(y) == n.next then nodes[y].(prev := n.prev)
                       else nodes[y])
  {
  }

  /** Relinking the neighbours of position `k` around it, and leaving every
      other element alone, spells the list without that position. */
  lemma {:induction false} RelinkRemoves(nodes: seq<Node>, r: seq<Node>, xs: seq<CopyId>, k: nat)
    requires Linked(nodes, xs) && k < |xs| && |r| == |nodes|
    requires forall i :: 0 <= i < |xs| && i != k - 1 && i != k && i != k + 1 ==>
               r[xs[i]] == nodes[xs[i]]
    requires k > 0 ==> r[xs[k - 1]] == nodes[xs[k - 1]].(next := nodes[xs[k]].next)
    requires k + 1 < |xs| ==> r[xs[k + 1]] == nodes[xs[k + 1]].(prev := nodes[xs[k]].prev)
    ensures Linked(r, RemoveAt(xs, k))
  {
    var ys := RemoveAt(xs, k);
    RemoveAtDistinct(xs, k);
    forall i | 0 < i < |ys| ensures r[ys[i]].prev == Some(ys[i - 1]) {
      if i == k {
        assert ys[i] == xs[k + 1] && ys[i - 1] == xs[k - 1];
      } else if i < k {
        assert ys[i] == xs[i] && ys[i - 1] == xs[i - 1];
      } else {
        assert ys[i] == xs[i + 1] && ys[i - 1] == xs[i];
      }
    }
    forall i | 0 <= i < |ys| - 1 ensures r[ys[i]].next == Some(ys[i + 1]) {
      if i == k - 1 {
        assert ys[i] == xs[k - 1] && ys[i + 1] == xs[k + 1];
      } else if i < k - 1 {
        assert ys[i] == xs[i] && ys[i + 1] == xs[i + 1];
      } else {
        assert ys[i] == xs[i + 1] && ys[i + 1] == xs[i + 2];
      }
    }
  }

  /** Detaching the element at position `k` removes exactly that element from
      the described sequence. */
  lemma DetachRemoves(nodes: seq<Node>, xs: seq<CopyId>, k: nat)
    requires Closed(nodes)
    requires Linked(nodes, xs)
    requires k < |xs|
    ensures Linked(Detach(nodes, xs[k]), RemoveAt(xs, k))
  {
    var c := xs[k];
    if k > 0 { assert xs[k - 1] != c; }
    if k + 1 < |xs| { assert xs[k + 1] != c; }
    if k > 0 && k + 1 < |xs| { assert xs[k - 1] != xs[k + 1]; }
    DetachEffect(nodes, c);
    var r := Detach(nodes, c);
    forall i | 0 <= i < |xs| && i != k - 1 && i != k && i != k + 1
      ensures r[xs[i]] == nodes[xs[i]]
    {
      assert xs[i] != c;
      if k > 0 { assert xs[i] != xs[k - 1]; }
      if k + 1 < |xs| { assert xs[i] != xs[k + 1]; }
    }
    RelinkRemoves(nodes, r, xs, k);
  }

  /** Allocating a fresh copy and linking it at the tail of list `h`: that
      list gains the copy at its end, and every other list, and the `extra`
      one, is still spelled by the links, provided none of them holds the
      old tail. */
  lemma LinkNewAtTail(nodes: seq<Node>, lists: seq<seq<CopyId>>, h: nat,
                      extra: seq<CopyId>, n: Node)
    requires h < |lists|
    requires forall g :: 0 <= g < |lists| ==> Linked(nodes, lists[g])
    requires Linked(nodes, lists[h]) && Linked(nodes, extra)
    requires n.prev.None? && n.next.None?
    requires forall g, i :: 0 <= g < |lists| && g != h && 0 <= i < |lists[g]| ==>
               Some(lists[g][i]) != Last(lists[h])
    requires forall i :: 0 <= i < |extra| ==> Some(extra[i]) != Last(lists[h])
    ensures var c := |nodes|;
            var r := LinkAtTail(nodes + [n], Last(lists[h]), c);
            && Linked(r, lists[h] + [c])
            && (forall g :: 0 <= g < |lists| && g != h ==> Linked(r, lists[g]))
            && Linked(r, extra)
  {
    var c := |nodes|;
    var n1 := nodes + [n];
    var tail := Last(lists[h]);
    var r := LinkAtTail(n1, tail, c);
    forall g | 0 <= g < |lists| ensures Linked(n1, lists[g]) {
      LinkedFrame(nodes, n1, lists[g]);
    }
    LinkedFrame(nodes, n1, extra);
    LinkAtTailAppends(n1, lists[h], c);
    forall g | 0 <= g < |lists| && g != h ensures Linked(r, lists[g]) {
      LinkedFrame(n1, r, lists[g]);
    }
    LinkedFrame(n1, r, extra);
  }

  /** Detaching an element of `xs` leaves the links of a list that shares
      no node with `xs` alone. */
  lemma DetachKeepsOther(nodes: seq<Node>, xs: seq<CopyId>, k: nat, ys: seq<CopyId>)
    requires Closed(nodes)
    requires Linked(nodes, xs) && k < |xs| && Linked(nodes, ys)
    requires forall i, j :: 0 <= i < |ys| && 0 <= j < |xs| ==> ys[i] != xs[j]
    ensures Linked(Detach(nodes, xs[k]), ys)
  {
    var c := xs[k];
    var d := Detach(nodes, c);
    if k > 0 { assert xs[k - 1] != c; }
    if k + 1 < |xs| { assert xs[k + 1] != c; }
    if k > 0 && k + 1 < |xs| { assert xs[k - 1] != xs[k + 1]; }
    DetachEffect(nodes, c);
    forall i | 0 <= i < |ys| ensures d[ys[i]] == nodes[ys[i]] {
      assert ys[i] != xs[k];
      if k > 0 { assert ys[i] != xs[k - 1]; }
      if k + 1 < |xs| { assert ys[i] != xs[k + 1]; }
    }
    LinkedFrame(nodes, d, ys);
  }

  /** Linking `c` after `tail` leaves the links of a list holding neither
      alone. */
  lemma LinkAtTailKeepsOther(nodes: seq<Node>, tail: Option<CopyId>, c: CopyId, ys: seq<CopyId>)
    requires c < |nodes| && Points(nodes, tail)
    requires Linked(nodes, ys)
    requires forall i :: 0 <= i < |ys| ==> ys[i] != c && Some(ys[i]) != tail
    ensures Linked(LinkAtTail(nodes, tail, c), ys)
  {
    LinkedFrame(nodes, LinkAtTail(nodes, tail, c), ys);
  }

  /** Moving element `k` of list `h` to the end of the list `extra`, as the
      end callback does: list `h` loses it, `extra` gains it at its end, and
      every other list, which shares no node with either, keeps its links. */
  lemma MoveToTail(nodes: seq<Node>, lists: seq<seq<CopyId>>, h: nat, k: nat,
                   extra: seq<CopyId>)
    requires Closed(nodes)
    requires h < |lists| && k < |lists[h]|
    requires forall g :: 0 <= g < |lists| ==> Linked(nodes, lists[g])
    requires Linked(nodes, lists[h]) && Linked(nodes, extra)
    requires forall g, i, j :: 0 <= g < |lists| && g != h && 0 <= i < |lists[g]| && 0 <= j < |lists[h]| ==>
               lists[g][i] != lists[h][j]
    requires forall g, i :: 0 <= g < |lists| && g != h && 0 <= i < |lists[g]| ==>
               Some(lists[g][i]) != Last(extra)
    requires forall i, j :: 0 <= i < |extra| && 0 <= j < |lists[h]| ==> extra[i] != lists[h][j]
    ensures var c := lists[h][k];
            var r := LinkAtTail(Detach(nodes, c), Last(extra), c);
            && Linked(r, RemoveAt(lists[h], k))
            && Linked(r, extra + [c])
            && (forall g :: 0 <= g < |lists| && g != h ==> Linked(r, lists[g]))
  {
    var xs := lists[h];
    var c := xs[k];
    var d := Detach(nodes, c);
    var tail := Last(extra);
    DetachRemoves(nodes, xs, k);
    DetachKeepsOther(nodes, xs, k, extra);
    assert c !in extra by {
      forall i | 0 <= i < |extra| ensures extra[i] != c { }
    }
    LinkAtTailAppends(d, extra, c);
    var ys := RemoveAt(xs, k);
    forall i | 0 <= i < |ys| ensures ys[i] != c && Some(ys[i]) != tail {
      if i < k { assert xs[i] != xs[k]; } else { assert xs[i + 1] != xs[k]; }
      if |extra| > 0 { assert extra[|extra| - 1] != ys[i]; }
    }
    LinkAtTailKeepsOther(d, tail, c, ys);
    forall g | 0 <= g < |lists| && g != h ensures Linked(LinkAtTail(d, tail, c), lists[g]) {
      DetachKeepsOther(nodes, xs, k, lists[g]);
      LinkAtTailKeepsOther(d, tail, c, lists[g]);
    }
  }
}

=== FILE: overrides.dfy ===
/** The background-music sequence-override table: a fixed number of slots,
    indexed by sequence id, each naming an `.m64` file of the active mod and
    caching its contents once they have been read.

    The number of slots (`MAX_AUDIO_OVERRIDE`) is defined in a header that is
    not part of this model; here it is the length of the table, which no
    operation changes. */
module Overrides {
  import opened Base

  /** One `struct AudioOverride`. `filename` and `buffer` are heap strings
      that may be NULL. */
  datatype Override = Override(
    enabled: bool,
    loaded: bool,
    filename: Option<string>,
    length: nat,
    bank: u8,
    buffer: Option<seq<u8>>)

  /** The all-zero slot, as the static initialiser leaves it. */
  const Cleared := Override(false, false, None, 0, 0, None)

  /** What `smlua_audio_utils_override` hands back to the sequence player:
      nothing, or the bank and a (possibly NULL) data pointer. */
  datatype Fetched = Miss | Hit(bank: u8, data: Option<seq<u8>>)

  /** `smlua_audio_utils_reset`: every field back to its zero value. */
  function Reset(o: Override): (r: Override)
    ensures !r.enabled && !r.loaded && r.filename.None? && r.buffer.None?
    ensures r.length == 0 && r.bank == 0
  {
    Override(false, false, None, 0, 0, None)
  }

  /** `smlua_audio_utils_reset_all` on the table (the engine re-initialisation
      and the default-volume bookkeeping belong to the external audio module). */
  function ResetAll(table: seq<Override>): (r: seq<Override>)
    ensures |r| == |table|
    ensures forall i :: 0 <= i < |r| ==> r[i] == Cleared
  {
    seq(|table|, i requires 0 <= i < |table| => Reset(table[i]))
  }

  /** The path `smlua_audio_utils_replace_sequence` looks for. */
  function M64Path(m64Name: string): string
  {
    "sound/" + m64Name + ".m64"
  }

  /** `smlua_audio_utils_replace_sequence`. `mod` is the active mod's file
      table (None when no mod is active) and `normalize` is the path
      normaliser of the mod loader. The second result is true when the
      engine is re-initialised because the slot was already enabled. */
  function ReplaceSequence(table: seq<Override>, mod: Option<seq<ModFile>>,
                           sequenceId: u8, bankId: u8, m64Name: string,
                           normalize: string -> string): (r: (seq<Override>, bool))
    ensures |r.0| == |table|
    ensures sequenceId as int >= |table| || bankId >= 64 || mod.None? ==> r == (table, false)
    ensures forall i :: 0 <= i < |table| && i != sequenceId as int ==> r.0[i] == table[i]
    ensures r.0 != table || r.1 ==>
              sequenceId as int < |table| && bankId < 64 && mod.Some?
              && exists k :: 0 <= k < |mod.value|
                   && EndsWith(normalize(mod.value[k].relativePath), normalize(M64Path(m64Name)))
  {
    if mod.None? then (table, false)
    else if sequenceId as int >= |table| then (table, false)
    else if bankId >= 64 then (table, false)
    else
      var path := normalize(M64Path(m64Name));
      match FirstEndingWith(mod.value, path, normalize, 0)
      case None => (table, false)
      case Some(k) =>
        var old_ := table[sequenceId];
        var cleared := Reset(old_);
        var slot := cleared.(filename := Some(mod.value[k].cachedPath),
                             enabled := true, bank := bankId);
        (table[sequenceId as int := slot], old_.enabled)
  }

  /** `smlua_audio_utils_override`. Reading the file is outside the model:
      `read` is its outcome, None when it could not be opened or its buffer
      not allocated. The first result is the table afterwards. */
  function Lookup(table: seq<Override>, sequenceId: u8,
                  read: Option<seq<u8>>): (r: (seq<Override>, Fetched))
    ensures |r.0| == |table|
    ensures forall i :: 0 <= i < |table| && i != sequenceId as int ==> r.0[i] == table[i]
    ensures r.1.Miss? ==> r.0 == table
    ensures r.1.Hit? ==> sequenceId as int < |table| && table[sequenceId].enabled
                         && r.1.bank == table[sequenceId].bank
                         && r.0[sequenceId].loaded
                         && r.0[sequenceId].buffer == r.1.data
  {
    if sequenceId as int >= |table| then (table, Miss)
    else
      var o := table[sequenceId];
      if !o.enabled then (table, Miss)
      else if o.loaded then (table, Hit(o.bank, o.buffer))
      else match read
        case None => (table, Miss)
        case Some(data) =>
          var cached := o.(loaded := true, buffer := Some(data), length := |data|);
          (table[sequenceId as int := cached], Hit(o.bank, Some(data)))
  }

  /** A reset slot is disabled, so the sequence player never sees it. */
  lemma ResetDisables(table: seq<Override>, sequenceId: u8, read: Option<seq<u8>>)
    requires sequenceId as int < |table|
    ensures var t := table[sequenceId as int := Reset(table[sequenceId])];
            Lookup(t, sequenceId, read) == (t, Miss)
  {
  }

  /** After a reset of the whole table, no sequence is overridden: every
      lookup misses and leaves the table alone, whatever the file holds. */
  lemma ResetAllDisablesAll(table: seq<Override>, sequenceId: u8, read: Option<seq<u8>>)
    ensures var t := ResetAll(table);
            Lookup(t, sequenceId, read) == (t, Miss)
  {
  }

  /** Every field of a reset slot holds its zero value, whatever the slot held,
      and resetting twice is the same as resetting once. */
  lemma ResetClearsEveryField(o: Override)
    ensures var r := Reset(o);
            !r.enabled && !r.loaded && r.filename.None? && r.length == 0
            && r.bank == 0 && r.buffer.None?
    ensures Reset(Reset(o)) == Reset(o) == Cleared
  {
  }

  /** Once a slot is loaded, lookups answer from the cache: the file is not
      read again, the table does not change, and the answer is the cached
      buffer with the slot's bank. */
  lemma LookupServesCache(table: seq<Override>, sequenceId: u8, read: Option<seq<u8>>)
    requires sequenceId as int < |table|
    requires table[sequenceId].enabled && table[sequenceId].loaded
    ensures Lookup(table, sequenceId, read)
            == (table, Hit(table[sequenceId].bank, table[sequenceId].buffer))
  {
  }

  /** A lookup that succeeds fills the cache: any later lookup of the same
      sequence, whatever the file would read then, returns the same bank and
      data and changes nothing more. */
  lemma LookupCachesFirstRead(table: seq<Override>, sequenceId: u8,
                              read: Option<seq<u8>>, later: Option<seq<u8>>)
    requires Lookup(table, sequenceId, read).1.Hit?
    ensures var (t1, f1) := Lookup(table, sequenceId, read);
            Lookup(t1, sequenceId, later) == (t1, f1)
  {
  }

  /** A sequence that is out of range or not enabled is never overridden. */
  lemma LookupRejects(table: seq<Override>, sequenceId: u8, read: Option<seq<u8>>)
    requires sequenceId as int >= |table| || !table[sequenceId].enabled
    ensures Lookup(table, sequenceId, read) == (table, Miss)
  {
  }

  /** A successful replacement installs the FIRST matching file of the mod,
      with the requested bank, and drops whatever the slot had cached, so the
      next lookup reads the new file. */
  lemma ReplaceSequenceInstallsFirstMatch(table: seq<Override>, files: seq<ModFile>,
                                          sequenceId: u8, bankId: u8, m64Name: string,
                                          normalize: string -> string, k: nat,
                                          data: seq<u8>)
    requires sequenceId as int < |table| && bankId < 64
    requires k < |files|
    requires EndsWith(normalize(files[k].relativePath), normalize(M64Path(m64Name)))
    requires forall j :: 0 <= j < k ==>
               !EndsWith(normalize(files[j].relativePath), normalize(M64Path(m64Name)))
    ensures var (t, reinit) := ReplaceSequence(table, Some(files), sequenceId, bankId,
                                               m64Name, normalize);
            && t[sequenceId].enabled && !t[sequenceId].loaded
            && t[sequenceId].filename == Some(files[k].cachedPath)
            && t[sequenceId].bank == bankId
            && t[sequenceId].buffer.None? && t[sequenceId].length == 0
            && reinit == table[sequenceId].enabled
            && Lookup(t, sequenceId, Some(data)).1 == Hit(bankId, Some(data))
  {
    var found := FirstEndingWith(files, normalize(M64Path(m64Name)), normalize, 0);
    assert found == Some(k);
  }
}

=== FILE: registry.dfy ===
/** The audio handle registry: `audio_load_internal` and its helper
    `find_mod_audio`. A load validates the file type, resolves the name to a
    file of the active mod, returns the handle already registered for that
    file when there is one, and otherwise allocates a pool slot and asks the
    engine to open the file.

    The engine and the pool allocator are outside the model: their combined
    answer for a fresh load is the parameter `env`. */
module Registry {
  import opened Base
  import opened ModAudio

  /** Why a load returned NULL; each case has its own log line. */
  datatype LoadError = UnsupportedFormat | NotFound | KindMismatch | OutOfMemory | EngineInitFailed

  /** The pointer `audio_load_internal` returns. */
  datatype LoadResult = Loaded(handle: HandleId) | Failed(error: LoadError)

  /** What the pool allocator and `ma_sound_init_from_file` answer: no slot,
      a slot but a file the engine rejects, or a slot and a sound of the
      given length in PCM frames. */
  datatype Env = PoolExhausted | InitFails | InitOk(length: nat)

  /** The extensions `audio_load_internal` accepts, in the order it tries them. */
  const AudioFileTypes: seq<string> := [".mp3", ".aiff", ".ogg"]

  /** The file-type check at the start of a load. */
  predicate ValidFileType(filename: string): (ok: bool)
    ensures ok <==> EndsWith(filename, ".mp3") || EndsWith(filename, ".aiff")
                    || EndsWith(filename, ".ogg")
  {
    exists ft :: ft in AudioFileTypes && EndsWith(filename, ft)
  }

  /** Which slot (if any) `find_mod_audio` returns, searching the slots below
      `n` from the most recent one back. */
  function FindFrom(pool: seq<Handle>, file: FileRef, n: nat): (r: Option<HandleId>)
    requires n <= |pool|
    ensures r.Some? ==> r.value < n && pool[r.value].file == Some(file)
                        && forall j :: r.value < j < n ==> pool[j].file != Some(file)
    ensures r.None? ==> forall j :: 0 <= j < n ==> pool[j].file != Some(file)
  {
    if n == 0 then None
    else if pool[n - 1].file == Some(file) then Some(n - 1)
    else FindFrom(pool, file, n - 1)
  }

  /** `find_mod_audio`: the most recently allocated slot whose `file` is the
      given mod-file record (compared by identity), or NULL. */
  function FindModAudio(pool: seq<Handle>, file: FileRef): (r: Option<HandleId>)
    ensures r.Some? ==> r.value < |pool| && pool[r.value].file == Some(file)
                        && forall j :: r.value < j < |pool| ==> pool[j].file != Some(file)
    ensures r.None? <==> forall j :: 0 <= j < |pool| ==> pool[j].file != Some(file)
  {
    FindFrom(pool, file, |pool|)
  }

  /** Slots that keep the files they record keep what a search finds. */
  lemma FindKept(pool: seq<Handle>, pool': seq<Handle>, file: FileRef)
    requires |pool'| == |pool|
    requires forall g :: 0 <= g < |pool| ==> pool'[g].file == pool[g].file
    ensures FindModAudio(pool', file) == FindModAudio(pool, file)
  {
    var r, r' := FindModAudio(pool, file), FindModAudio(pool', file);
    if r.Some? {
      assert pool'[r.value].file == Some(file);
      assert r' == r;
    }
  }

  /** Appending a slot for another file does not change what a search finds. */
  lemma FindAfterAppend(pool: seq<Handle>, slot: Handle, file: FileRef)
    requires slot.file != Some(file)
    ensures FindModAudio(pool + [slot], file) == FindModAudio(pool, file)
  {
    var p' := pool + [slot];
    assert forall g :: 0 <= g < |pool| ==> p'[g] == pool[g];
    var r, r' := FindModAudio(pool, file), FindModAudio(p', file);
    if r.Some? {
      assert p'[r.value].file == Some(file);
      assert r' == r;
    }
  }

  /** At most one slot per mod-file record. */
  ghost predicate UniqueFiles(pool: seq<Handle>)
  {
    forall i, j :: 0 <= i < j < |pool| && pool[i].file.Some? ==> pool[i].file != pool[j].file
  }

  /** The part of a load before anything is allocated: either it is already
      decided, or a fresh slot must be allocated for `file`. */
  datatype Step = Done(result: LoadResult) | Allocate(file: FileRef)

  /** Lines 193-238: the type check, the search of the active mod's files
      (the first whose relative path ends with `filename`) and the lookup of
      an existing handle. */
  function Resolve(pool: seq<Handle>, mod: Mod, filename: string, isStream: bool): (r: Step)
    ensures !ValidFileType(filename) ==> r == Done(Failed(UnsupportedFormat))
    ensures (ValidFileType(filename)
             && forall k :: 0 <= k < |mod.files| ==> !EndsWith(mod.files[k].relativePath, filename))
            ==> r == Done(Failed(NotFound))
    ensures r.Done? && r.result.Loaded? ==>
              r.result.handle < |pool| && pool[r.result.handle].isStream == isStream
    ensures r.Allocate? ==> r.file.mod == mod.id && r.file.index < |mod.files|
                            && EndsWith(mod.files[r.file.index].relativePath, filename)
                            && (forall j :: 0 <= j < r.file.index ==>
                                  !EndsWith(mod.files[j].relativePath, filename))
                            && FindModAudio(pool, r.file).None?
  {
    if !ValidFileType(filename) then Done(Failed(UnsupportedFormat))
    else match FirstEndingWith(mod.files, filename, s => s, 0)
      case None => Done(Failed(NotFound))
      case Some(k) =>
        var file := FileRef(mod.id, k);
        match FindModAudio(pool, file)
        case Some(h) =>
          if isStream == pool[h].isStream then Done(Loaded(h))
          else Done(Failed(KindMismatch))
        case None => Allocate(file)
  }

  /** A sound the engine has just opened: stopped, at frame 0, not looping,
      at its natural pitch. */
  function OpenedSound(length: nat): Sound
  {
    Sound(true, false, 0, length, false, 1.0, 0)
  }

  /** `audio_load_internal` as written. When the engine rejects the file the
      slot has already been allocated and its `file` set (lines 242-250), and
      `isStream` is never assigned, so the slot stays registered as a sample
      whose sound was never initialised. */
  function LoadAsWritten(s: AudioState, mod: Mod, filename: string, isStream: bool,
                         env: Env): (r: (AudioState, LoadResult))
    ensures r.1.Loaded? ==> r.1.handle < |r.0.pool| && r.0.pool[r.1.handle].isStream == isStream
    ensures r.0 == s || (r.0 == s.(pool := r.0.pool) && |r.0.pool| == |s.pool| + 1
                         && r.0.pool[..|s.pool|] == s.pool && r.0.pool[|s.pool|].copiesTail.None?)
    ensures r.0 != s ==> r.0.pool[|s.pool|].file.Some?
                         && FindModAudio(s.pool, r.0.pool[|s.pool|].file.value).None?
  {
    match Resolve(s.pool, mod, filename, isStream)
    case Done(result) => (s, result)
    case Allocate(file) =>
      match env
      case PoolExhausted => (s, Failed(OutOfMemory))
      case InitFails =>
        (s.(pool := s.pool + [Handle(Some(file), false, ZeroSound, None)]), Failed(EngineInitFailed))
      case InitOk(length) =>
        (s.(pool := s.pool + [Handle(Some(file), isStream, OpenedSound(length), None)]),
         Loaded(|s.pool|))
  }

  /** The load as the design intends it: a failed load leaves no trace, so a
      file the engine rejected once can be loaded, as either kind, later. */
  function Load(s: AudioState, mod: Mod, filename: string, isStream: bool,
                env: Env): (r: (AudioState, LoadResult))
    ensures r.1.Failed? ==> r.0 == s
    ensures r.1.Loaded? ==> r.1.handle < |r.0.pool| && r.0.pool[r.1.handle].isStream == isStream
    ensures r.0 != s ==> r.1 == Loaded(|s.pool|) && r.0.pool[|s.pool|].sound.ready
    ensures r.0 == s || (r.0 == s.(pool := r.0.pool) && |r.0.pool| == |s.pool| + 1
                         && r.0.pool[..|s.pool|] == s.pool && r.0.pool[|s.pool|].copiesTail.None?)
    ensures r.0 != s ==> r.0.pool[|s.pool|].file.Some?
                         && FindModAudio(s.pool, r.0.pool[|s.pool|].file.value).None?
  {
    match Resolve(s.pool, mod, filename, isStream)
    case Done(result) => (s, result)
    case Allocate(file) =>
      match env
      case PoolExhausted => (s, Failed(OutOfMemory))
      case InitFails => (s, Failed(EngineInitFailed))
      case InitOk(length) =>
        (s.(pool := s.pool + [Handle(Some(file), isStream, OpenedSound(length), None)]),
         Loaded(|s.pool|))
  }

  /** A fresh load: a supported name whose first matching file of the mod
      has no slot yet. With a slot and a sound from the engine, both versions
      append a slot recording that file, with the requested kind and the
      opened sound, and return it; with no slot left both fail and change
      nothing; when the engine rejects the file, only the corrected load
      leaves no trace. */
  lemma LoadFreshFile(s: AudioState, mod: Mod, filename: string, isStream: bool,
                      k: nat, length: nat)
    requires ValidFileType(filename)
    requires k < |mod.files| && EndsWith(mod.files[k].relativePath, filename)
    requires forall j :: 0 <= j < k ==> !EndsWith(mod.files[j].relativePath, filename)
    requires FindModAudio(s.pool, FileRef(mod.id, k)).None?
    ensures var slot := Handle(Some(FileRef(mod.id, k)), isStream, OpenedSound(length), None);
            && Load(s, mod, filename, isStream, InitOk(length))
               == (s.(pool := s.pool + [slot]), Loaded(|s.pool|))
            && LoadAsWritten(s, mod, filename, isStream, InitOk(length))
               == Load(s, mod, filename, isStream, InitOk(length))
    ensures Load(s, mod, filename, isStream, PoolExhausted) == (s, Failed(OutOfMemory))
    ensures LoadAsWritten(s, mod, filename, isStream, PoolExhausted) == (s, Failed(OutOfMemory))
    ensures Load(s, mod, filename, isStream, InitFails) == (s, Failed(EngineInitFailed))
  {
    var found := FirstEndingWith(mod.files, filename, x => x, 0);
    assert found == Some(k);
  }

  /** The corrected load differs from the code as written only when the
      engine rejects a fresh file. */
  lemma LoadDiffersOnlyOnInitFailure(s: AudioState, mod: Mod, filename: string,
                                     isStream: bool, env: Env)
    ensures LoadAsWritten(s, mod, filename, isStream, env) != Load(s, mod, filename, isStream, env)
            <==> env == InitFails && Resolve(s.pool, mod, filename, isStream).Allocate?
  {
  }

  /** A file of an unsupported type, or a name no file of the active mod
      ends with, is refused before anything is allocated, by both versions
      of the load and whatever the engine would have answered. */
  lemma LoadRejects(s: AudioState, mod: Mod, filename: string, isStream: bool, env: Env)
    requires !ValidFileType(filename)
             || forall k :: 0 <= k < |mod.files| ==> !EndsWith(mod.files[k].relativePath, filename)
    ensures var err := if ValidFileType(filename) then NotFound else UnsupportedFormat;
            && LoadAsWritten(s, mod, filename, isStream, env) == (s, Failed(err))
            && Load(s, mod, filename, isStream, env) == (s, Failed(err))
  {
  }

  /** Both versions of the load keep at most one slot per mod file. */
  lemma LoadKeepsFilesUnique(s: AudioState, mod: Mod, filename: string, isStream: bool, env: Env)
    requires UniqueFiles(s.pool)
    ensures UniqueFiles(LoadAsWritten(s, mod, filename, isStream, env).0.pool)
    ensures UniqueFiles(Load(s, mod, filename, isStream, env).0.pool)
  {
    var step := Resolve(s.pool, mod, filename, isStream);
    if step.Allocate? {
      assert forall j :: 0 <= j < |s.pool| ==> s.pool[j].file != Some(step.file);
    }
  }

  /** Loading a file that is already registered: the same kind returns the
      identical handle, the other kind fails with a kind mismatch; in both
      cases nothing is allocated, whatever the engine would have answered. */
  lemma LoadDeduplicates(s: AudioState, mod: Mod, filename: string, isStream: bool,
                         env: Env, k: nat, h: HandleId)
    requires ValidFileType(filename)
    requires k < |mod.files| && EndsWith(mod.files[k].relativePath, filename)
    requires forall j :: 0 <= j < k ==> !EndsWith(mod.files[j].relativePath, filename)
    requires h < |s.pool| && s.pool[h].file == Some(FileRef(mod.id, k))
    requires UniqueFiles(s.pool)
    ensures s.pool[h].isStream == isStream ==>
              LoadAsWritten(s, mod, filename, isStream, env) == (s, Loaded(h))
              && Load(s, mod, filename, isStream, env) == (s, Loaded(h))
    ensures s.pool[h].isStream != isStream ==>
              LoadAsWritten(s, mod, filename, isStream, env) == (s, Failed(KindMismatch))
              && Load(s, mod, filename, isStream, env) == (s, Failed(KindMismatch))
  {
    var found := FirstEndingWith(mod.files, filename, x => x, 0);
    assert found == Some(k);
    var f := FindModAudio(s.pool, FileRef(mod.id, k));
    assert f == Some(h);
  }

  /** Loading again what was just loaded returns the same handle and changes
      nothing: the registry is idempotent for a successful load. */
  lemma LoadIsIdempotent(s: AudioState, mod: Mod, filename: string, isStream: bool,
                         env: Env, env': Env)
    requires Load(s, mod, filename, isStream, env).1.Loaded?
    ensures var (s1, r1) := Load(s, mod, filename, isStream, env);
            Load(s1, mod, filename, isStream, env') == (s1, r1)
  {
    var (s1, r1) := Load(s, mod, filename, isStream, env);
    var step := Resolve(s.pool, mod, filename, isStream);
    if step.Allocate? {
      var file := step.file;
      assert s1.pool[|s.pool|].file == Some(file);
      assert FindModAudio(s1.pool, file) == Some(|s.pool|);
    }
  }

  /** The half-registered slot: after the engine rejects a fresh file loaded
      as a stream, the next stream load of the file fails (its slot reads as
      a sample), and loading it as a sample hands back that slot, whose sound
      was never initialised. `Lifecycle.HalfRegisteredForever` extends this
      to any later sequence of events. */
  lemma {:induction false} HalfRegisteredSlot(s: AudioState, mod: Mod, filename: string,
                                              env: Env, env': Env)
    requires LoadAsWritten(s, mod, filename, true, InitFails).1 == Failed(EngineInitFailed)
    requires LoadAsWritten(s, mod, filename, true, InitFails).0 != s
    ensures var s1 := LoadAsWritten(s, mod, filename, true, InitFails).0;
            && LoadAsWritten(s1, mod, filename, true, env) == (s1, Failed(KindMismatch))
            && LoadAsWritten(s1, mod, filename, false, env') == (s1, Loaded(|s.pool|))
            && !s1.pool[|s.pool|].sound.ready
  {
    var s1 := LoadAsWritten(s, mod, filename, true, InitFails).0;
    var file := Resolve(s.pool, mod, filename, true).file;
    assert Resolve(s.pool, mod, filename, false) == Allocate(file);
    assert FindModAudio(s1.pool, file) == Some(|s.pool|);
  }

  /** With the corrected load, a rejected file can be retried: nothing of
      the failed attempt remains, so the next load behaves as the first. */
  lemma FailedLoadCanBeRetried(s: AudioState, mod: Mod, filename: string, isStream: bool,
                               env: Env, isStream': bool, env': Env)
    requires Load(s, mod, filename, isStream, env).1.Failed?
    ensures var s1 := Load(s, mod, filename, isStream, env).0;
            Load(s1, mod, filename, isStream', env') == Load(s, mod, filename, isStream', env')
  {
  }

  /** A concrete case: a mod with one file `music.ogg` whose first stream
      load is rejected by the engine. */
  lemma HalfRegisteredExample()
    ensures var mod := Mod(7, [ModFile("sound/music.ogg", "cache/music.ogg")]);
            var s1 := LoadAsWritten(Init, mod, "music.ogg", true, InitFails).0;
            && LoadAsWritten(s1, mod, "music.ogg", true, InitOk(44100)).1 == Failed(KindMismatch)
            && Load(Load(Init, mod, "music.ogg", true, InitFails).0, mod, "music.ogg", true,
                    InitOk(44100)).1 == Loaded(0)
  {
    var mod := Mod(7, [ModFile("sound/music.ogg", "cache/music.ogg")]);
    assert EndsWith("music.ogg", AudioFileTypes[2]);
    assert EndsWith(mod.files[0].relativePath, "music.ogg");
    assert FirstEndingWith(mod.files, "music.ogg", x => x, 0) == Some(0);
    HalfRegisteredSlot(Init, mod, "music.ogg", InitOk(44100), InitOk(44100));
  }
}

=== FILE: streams.dfy ===
/** The stream operations: `audio_stream_*`. Each is guarded by the sanity
    check for the stream kind and acts on the handle's own sound only; the
    engine's sound is abstracted to a playing flag, a cursor in PCM frames,
    a looping flag and a pitch. Volumes are left out. */
module Streams {
  import opened Base
  import opened ModAudio

  /** `audio_stream_play`: the stream starts; it is rewound to frame 0 when
      `restart` is asked for or when it was not playing, so a paused stream
      starts over unless it was still playing. */
  function StreamPlay(s: AudioState, audio: Option<HandleId>, restart: bool): (r: AudioState)
    requires audio.Some? ==> audio.value < |s.pool|
    ensures |r.pool| == |s.pool|
    ensures !SanityCheck(s.pool, audio, true) ==> r == s
    ensures SanityCheck(s.pool, audio, true) ==>
              var old_ := s.pool[audio.value].sound;
              && r.pool[audio.value].sound.playing
              && r.pool[audio.value].sound.frame == (if restart || !old_.playing then 0 else old_.frame)
              && r == WithSound(s, audio.value, r.pool[audio.value].sound)
  {
    if !SanityCheck(s.pool, audio, true) then s
    else
      var snd := s.pool[audio.value].sound;
      var frame := if restart || !snd.playing then 0 else snd.frame;
      WithSound(s, audio.value, snd.(playing := true, frame := frame))
  }

  /** `audio_stream_pause`: the stream stops where it is. */
  function StreamPause(s: AudioState, audio: Option<HandleId>): (r: AudioState)
    requires audio.Some? ==> audio.value < |s.pool|
    ensures |r.pool| == |s.pool|
    ensures !SanityCheck(s.pool, audio, true) ==> r == s
    ensures SanityCheck(s.pool, audio, true) ==>
              r == WithSound(s, audio.value, s.pool[audio.value].sound.(playing := false))
  {
    if !SanityCheck(s.pool, audio, true) then s
    else WithSound(s, audio.value, s.pool[audio.value].sound.(playing := false))
  }

  /** `audio_stream_stop`: the stream stops and is rewound to frame 0. */
  function StreamStop(s: AudioState, audio: Option<HandleId>): (r: AudioState)
    requires audio.Some? ==> audio.value < |s.pool|
    ensures |r.pool| == |s.pool|
    ensures !SanityCheck(s.pool, audio, true) ==> r == s
    ensures SanityCheck(s.pool, audio, true) ==>
              r == WithSound(s, audio.value, s.pool[audio.value].sound.(playing := false, frame := 0))
  {
    if !SanityCheck(s.pool, audio, true) then s
    else WithSound(s, audio.value, s.pool[audio.value].sound.(playing := false, frame := 0))
  }

  /** Below this many frames a length survives the conversion to a 32-bit float unchanged. */
  const F32Exact: nat := 0x100_0000

  /** The frame `audio_stream_set_position` seeks to: the length scaled by
      `pos`, truncated towards zero by the conversion to `u64`. The product
      is taken on exact reals, not in single precision. */
  function SeekTarget(length: nat, pos: real): (f: nat)
    requires pos >= 0.0
    ensures f as real <= length as real * pos < f as real + 1.0
  {
    (length as real * pos).Floor
  }

  /** `audio_stream_set_position`: `pos` is a fraction of the length. */
  function StreamSetPosition(s: AudioState, audio: Option<HandleId>, pos: real): (r: AudioState)
    requires audio.Some? ==> audio.value < |s.pool|
    requires pos >= 0.0
    ensures |r.pool| == |s.pool|
    ensures !SanityCheck(s.pool, audio, true) ==> r == s
    ensures SanityCheck(s.pool, audio, true) ==>
              var snd := s.pool[audio.value].sound;
              r == WithSound(s, audio.value, snd.(frame := SeekTarget(snd.length, pos)))
  {
    if !SanityCheck(s.pool, audio, true) then s
    else
      var snd := s.pool[audio.value].sound;
      WithSound(s, audio.value, snd.(frame := SeekTarget(snd.length, pos)))
  }

  /** `audio_stream_get_looping`: false for anything but a stream. */
  function StreamGetLooping(s: AudioState, audio: Option<HandleId>): (b: bool)
    requires audio.Some? ==> audio.value < |s.pool|
    ensures b ==> SanityCheck(s.pool, audio, true)
  {
    SanityCheck(s.pool, audio, true) && s.pool[audio.value].sound.looping
  }

  /** `audio_stream_set_looping`. */
  function StreamSetLooping(s: AudioState, audio: Option<HandleId>, looping: bool): (r: AudioState)
    requires audio.Some? ==> audio.value < |s.pool|
    ensures |r.pool| == |s.pool|
    ensures !SanityCheck(s.pool, audio, true) ==> r == s
    ensures SanityCheck(s.pool, audio, true) ==>
              r == WithSound(s, audio.value, s.pool[audio.value].sound.(looping := looping))
  {
    if !SanityCheck(s.pool, audio, true) then s
    else WithSound(s, audio.value, s.pool[audio.value].sound.(looping := looping))
  }

  /** `audio_stream_get_frequency`: the pitch, or 0 for anything but a
      stream. */
  function StreamGetFrequency(s: AudioState, audio: Option<HandleId>): (f: real)
    requires audio.Some? ==> audio.value < |s.pool|
    ensures !SanityCheck(s.pool, audio, true) ==> f == 0.0
  {
    if SanityCheck(s.pool, audio, true) then s.pool[audio.value].sound.pitch else 0.0
  }

  /** `audio_stream_set_frequency`. */
  function StreamSetFrequency(s: AudioState, audio: Option<HandleId>, freq: real): (r: AudioState)
    requires audio.Some? ==> audio.value < |s.pool|
    ensures |r.pool| == |s.pool|
    ensures !SanityCheck(s.pool, audio, true) ==> r == s
    ensures SanityCheck(s.pool, audio, true) ==>
              r == WithSound(s, audio.value, s.pool[audio.value].sound.(pitch := freq))
  {
    if !SanityCheck(s.pool, audio, true) then s
    else WithSound(s, audio.value, s.pool[audio.value].sound.(pitch := freq))
  }

  /** `audio_stream_destroy`: the sound is uninitialised; the slot stays in
      the pool. */
  function StreamDestroy(s: AudioState, audio: Option<HandleId>): (r: AudioState)
    requires audio.Some? ==> audio.value < |s.pool|
    ensures |r.pool| == |s.pool|
    ensures !SanityCheck(s.pool, audio, true) ==> r == s
    ensures SanityCheck(s.pool, audio, true) ==>
              var snd := r.pool[audio.value].sound;
              && !snd.ready && !snd.playing
              && snd.uninits == s.pool[audio.value].sound.uninits + 1
              && r == WithSound(s, audio.value, snd)
  {
    if !SanityCheck(s.pool, audio, true) then s
    else WithSound(s, audio.value, Uninit(s.pool[audio.value].sound))
  }

  /** A stream operation aimed at a sample handle, or at NULL, changes
      nothing and reads as the neutral value. */
  lemma StreamOpsCheckKind(s: AudioState, audio: Option<HandleId>, restart: bool,
                           pos: real, looping: bool, freq: real)
    requires audio.Some? ==> audio.value < |s.pool|
    requires pos >= 0.0
    requires audio.None? || !s.pool[audio.value].isStream
    ensures StreamPlay(s, audio, restart) == s && StreamPause(s, audio) == s
    ensures StreamStop(s, audio) == s && StreamSetPosition(s, audio, pos) == s
    ensures StreamSetLooping(s, audio, looping) == s && StreamSetFrequency(s, audio, freq) == s
    ensures StreamDestroy(s, audio) == s
    ensures !StreamGetLooping(s, audio) && StreamGetFrequency(s, audio) == 0.0
  {
  }

  /** What is set is what is read back. */
  lemma StreamSettersRoundTrip(s: AudioState, audio: Option<HandleId>, looping: bool, freq: real)
    requires audio.Some? ==> audio.value < |s.pool|
    requires SanityCheck(s.pool, audio, true)
    ensures StreamGetLooping(StreamSetLooping(s, audio, looping), audio) == looping
    ensures StreamGetFrequency(StreamSetFrequency(s, audio, freq), audio) == freq
  {
  }

  /** Pausing and then playing without a restart starts the stream over
      from frame 0, exactly as a stop would have. */
  lemma PauseThenPlayRewinds(s: AudioState, audio: Option<HandleId>)
    requires audio.Some? ==> audio.value < |s.pool|
    requires SanityCheck(s.pool, audio, true)
    ensures StreamPlay(StreamPause(s, audio), audio, false)
            == StreamPlay(StreamStop(s, audio), audio, false)
    ensures StreamPlay(StreamPause(s, audio), audio, false).pool[audio.value].sound.frame == 0
  {
  }

  /** Playing a stream that is already playing, without a restart, keeps
      its position. */
  lemma PlayWhilePlayingKeepsPosition(s: AudioState, audio: Option<HandleId>)
    requires audio.Some? ==> audio.value < |s.pool|
    requires SanityCheck(s.pool, audio, true) && s.pool[audio.value].sound.playing
    ensures StreamPlay(s, audio, false) == s
  {
  }

  /** A stream that played to its end on its own is no longer playing, so
      playing it again without a restart starts over from the first frame;
      a looping stream never ends and keeps its place. */
  lemma EndedStreamPlaysFromStart(s: AudioState, h: HandleId)
    requires h < |s.pool| && s.pool[h].isStream
    requires s.pool[h].sound.ready && s.pool[h].sound.playing
    ensures !s.pool[h].sound.looping ==>
              StreamPlay(SoundEnds(s, h), Some(h), false).pool[h].sound.frame == 0
    ensures s.pool[h].sound.looping ==>
              StreamPlay(SoundEnds(s, h), Some(h), false) == s
  {
  }

  /** Seeking: position 0 is the start and a later position never seeks to
      an earlier frame; while the length is exact in single precision,
      position 1 is the end and no position up to 1 goes past it. */
  lemma SeekTargetBounds(length: nat, pos: real, pos': real)
    requires 0.0 <= pos <= pos'
    ensures SeekTarget(length, 0.0) == 0
    ensures SeekTarget(length, pos) <= SeekTarget(length, pos')
    ensures length < F32Exact ==> SeekTarget(length, 1.0) == length
    ensures length < F32Exact && pos <= 1.0 ==> SeekTarget(length, pos) <= length
  {
    var a := length as real;
    ScaleMonotone(a, pos, pos');
    var f, f' := SeekTarget(length, pos), SeekTarget(length, pos');
    assert f as real <= a * pos' < f' as real + 1.0;
    if pos <= 1.0 {
      ScaleMonotone(a, pos, 1.0);
    }
  }

  /** Scaling by a non-negative factor keeps the order. */
  lemma ScaleMonotone(a: real, x: real, y: real)
    requires a >= 0.0 && x <= y
    ensures a * x <= a * y
  {
    assert a * y - a * x == a * (y - x);
  }
}
